=== FILE: README.md ===
# Transaction and withdrawal engines, modelled in Dafny

This project models the core of a small money-movement service. Two engines share an account ledger and a report log.

- The **transaction engine** (`TransactionWorker`) takes transfers and withdrawal requests from a queue.
  - It moves money between accounts, or moves money from an account's balance into its reserve.
  - It stores one report per message and sends that report to the report queue.
  - It forwards each accepted withdrawal request to the withdrawal engine.
  - It also stores the reports the withdrawal engine sends back.
- The **withdrawal engine** (`WithdrawalWorker`) registers forwarded requests with an external provider (`WithdrawalServiceStub`).
  - Whenever its queue is idle, it reconciles the PROCESSING rows of the withdrawal store against the provider.
  - It records terminal states and reports them back.

How the Java constructs are modelled:

| Java | Dafny |
|---|---|
| Records, with the checks in their compact constructors | Datatypes, each with a `Valid…` predicate and a `New…` constructor function returning the record or the message of the first failing check |
| The three repositories | Pure operations on a `map` (accounts, withdrawals) or a `seq` (reports, oldest first) |
| An `SQLException` | A `Failure` carrying its message, chosen by an explicit *fault plan* parameter that names which store interaction fails and why |
| The provider stub's wall clock and random draws | Parameters (`now`, `Draw`) |
| One turn of each engine's `run` loop | A pure `Iteration` function |
| The transaction engine's repeated loop | `Run`, a fold of `Iteration` over a sequence of inputs |
| Amounts (`BigDecimal`) | Integers in minor units |

Modules:

- `Wrappers` (`wrappers.dfy`): the option and outcome types.
- `Text` (`text.dfy`): Java's `isBlank` and `Character.isWhitespace`.
- `Model` (`model.dfy`): the records.
- `AccountStore` (`account_store.dfy`): the accounts, and the ledger total `Total`.
- `ReportLog` (`report_log.dfy`): the report log.
- `WithdrawalStore` (`withdrawal_store.dfy`): the withdrawal rows.
- `Provider` (`provider.dfy`): the provider stub.
- `TransactionWorker` (`transaction_worker.dfy`): the transaction engine.
- `WithdrawalWorker` (`withdrawal_worker.dfy`): the withdrawal engine.

Source paths below are relative to the repository root.

## Model

| member | source | states |
|---|---|---|
| Text.PrefixedNotBlank | src/main/java/com/nerverless/task/model/Result.java:8-10 | a message that starts with a visible prefix, such as "Transaction failed: " + cause, is never refused as blank, whatever the cause |
| Model.NewTransactionId | src/main/java/com/nerverless/task/model/TransactionId.java:6-14 | accepted iff the id is present and the user id is not null or blank; otherwise the message of the first failing check |
| Model.TransactionIdRoundTrip | src/main/java/com/nerverless/task/model/TransactionId.java:6-14 | the constructor accepts a record's own fields exactly when the record is valid, and rebuilds that record |
| Model.NewResult | src/main/java/com/nerverless/task/model/Result.java:3-11 | accepted iff a value is present and the message is not null or blank, with the two messages in check order |
| Model.NewUserAccount | src/main/java/com/nerverless/task/model/UserAccount.java:5-13 | accepted iff balance and reserve are both non-negative; a negative balance is reported before a negative reserve |
| Model.UserAccountRoundTrip | src/main/java/com/nerverless/task/model/UserAccount.java:5-13 | the canonical constructor accepts exactly the accounts satisfying the invariant |
| Model.NewFundedAccount | src/main/java/com/nerverless/task/model/UserAccount.java:15-17 | a two-argument account has nothing reserved and fails only on a negative balance |
| Model.NewEmptyAccount | src/main/java/com/nerverless/task/model/UserAccount.java:19-21 | the one-argument account always exists, is valid and holds no funds |
| Model.WithBalance | src/main/java/com/nerverless/task/model/UserAccount.java:23-25 | replaces only the balance, keeps name and reserve, and is refused iff the new balance is negative |
| Model.WithReserve | src/main/java/com/nerverless/task/model/UserAccount.java:27-29 | replaces only the reserve, keeps name and balance, and is refused iff the new reserve is negative |
| Model.WithersRoundTrip | src/main/java/com/nerverless/task/model/UserAccount.java:23-29 | rewriting a valid account with its own balance or reserve gives the same account |
| Model.NewTransfer | src/main/java/com/nerverless/task/model/Transaction.java:10-28 | accepted iff id present, both names non-blank and different, amount positive; each failure carries the message of the first failing check |
| Model.TransferRoundTrip | src/main/java/com/nerverless/task/model/Transaction.java:10-28 | the constructor accepts a transfer's own fields exactly when the transfer is valid |
| Model.NewWithdrawalRequest | src/main/java/com/nerverless/task/model/Transaction.java:30-45 | accepted iff id present, account and address non-blank, amount positive; messages in check order |
| Model.WithdrawalRequestRoundTrip | src/main/java/com/nerverless/task/model/Transaction.java:30-45 | the constructor accepts a request's own fields exactly when the request is valid |
| Model.NewWithdrawal | src/main/java/com/nerverless/task/model/Withdrawal.java:7-28 | accepted iff both ids are present, account and address non-blank, amount positive and status present; messages in check order |
| Model.WithdrawalRoundTrip | src/main/java/com/nerverless/task/model/Withdrawal.java:7-28 | the constructor accepts a withdrawal's own fields exactly when it is valid |
| Model.NewReport | src/main/java/com/nerverless/task/model/Report.java:5-19 | accepted iff transaction id present, amount positive, status present and message not blank; messages in check order |
| Model.ReportRoundTrip | src/main/java/com/nerverless/task/model/Report.java:5-19 | the constructor accepts a report's own fields exactly when the report is valid |
| AccountStore.FindByName | src/main/java/com/nerverless/task/dao/UserAccountRepository.java:37-49 | returns the stored account iff the name is present, else the "User not found" error |
| AccountStore.Update | src/main/java/com/nerverless/task/dao/UserAccountRepository.java:64-73 | overwrites only the row with the account's name; the key set is kept, and an unknown name changes nothing |
| AccountStore.Save | src/main/java/com/nerverless/task/dao/UserAccountRepository.java:52-61 | inserts a new row iff the name is absent and keeps every other row |
| AccountStore.FindAll | src/main/java/com/nerverless/task/dao/UserAccountRepository.java:22-34 | lists exactly the stored accounts |
| AccountStore.UpdatePreservesWellFormed | src/main/java/com/nerverless/task/dao/UserAccountRepository.java:64-73 | writing a valid account keeps every row keyed by its name and non-negative |
| AccountStore.SavePreservesWellFormed | src/main/java/com/nerverless/task/dao/UserAccountRepository.java:52-61 | inserting a valid account keeps the ledger well formed |
| AccountStore.UpdateThenFind | src/main/java/com/nerverless/task/dao/UserAccountRepository.java:37-73 | after an update, a lookup by that name returns the new account, and a lookup by any other name is unchanged |
| AccountStore.UpdateThenFindAll | src/main/java/com/nerverless/task/dao/UserAccountRepository.java:22-34 | after updating a stored name, the full listing holds the new account in place of the old one and nothing else changes |
| AccountStore.SaveThenFindAll | src/main/java/com/nerverless/task/dao/UserAccountRepository.java:22-34 | after inserting a new name, the full listing is the old one plus the new account |
| AccountStore.UpdateKeepsTotal | src/main/java/com/nerverless/task/dao/UserAccountRepository.java:64-73 | an update that keeps the account's balance plus reserve keeps the ledger's total money |
| ReportLog.Insert | src/main/java/com/nerverless/task/dao/ReportTransactionRepository.java:66-77 | appends the report unless the store fails, and then stores nothing and returns the failure's message |
| ReportLog.FindByTransactionId | src/main/java/com/nerverless/task/dao/ReportTransactionRepository.java:27-44 | lists every stored report for the id and only those |
| ReportLog.FindLastByTransactionId | src/main/java/com/nerverless/task/dao/ReportTransactionRepository.java:47-63 | empty iff no report has the id; otherwise a report with the id that no later report for the id follows |
| ReportLog.LastIsLastListed | src/main/java/com/nerverless/task/dao/ReportTransactionRepository.java:27-63 | the latest report for an id is the last one listed for it |
| ReportLog.InsertThenFind | src/main/java/com/nerverless/task/dao/ReportTransactionRepository.java:47-77 | after an insert, the new report is the latest for its id and is listed last |
| ReportLog.InsertKeepsOthers | src/main/java/com/nerverless/task/dao/ReportTransactionRepository.java:27-77 | inserting never changes what is found for any other id |
| ReportLog.FindLastAsWritten | src/main/java/com/nerverless/task/dao/ReportTransactionRepository.java:47-63 | the query as written returns the matching row created earliest, ties going to the newer row |
| ReportLog.AsWrittenPicksOldest | src/main/java/com/nerverless/task/dao/ReportTransactionRepository.java:48 | with a clock that advances between inserts, the query as written returns the first report ever stored for the id |
| ReportLog.LatestAsWrittenIsOldest | src/main/java/com/nerverless/task/dao/ReportTransactionRepository.java:48 | for two reports a second apart, the query as written returns the older one, while the latest is the newer one |
| WithdrawalStore.Save | src/main/java/com/nerverless/task/dao/WithdrawalRepository.java:29-40 | inserts a PROCESSING row iff the id is new, keeping every other row |
| WithdrawalStore.Update | src/main/java/com/nerverless/task/dao/WithdrawalRepository.java:43-52 | sets only status and message of that row; the rest of the store is unchanged, and an unknown id changes nothing |
| WithdrawalStore.FindProcessing | src/main/java/com/nerverless/task/dao/WithdrawalRepository.java:55-73 | lists every row whose status is PROCESSING (the set `ProcessingIds`, the query's WHERE filter) exactly once, and nothing else |
| WithdrawalStore.UpdatePreservesWellFormed | src/main/java/com/nerverless/task/dao/WithdrawalRepository.java:43-52 | a status update keeps every row readable back into a record |
| WithdrawalStore.SavePreservesWellFormed | src/main/java/com/nerverless/task/dao/WithdrawalRepository.java:29-40 | saving a valid withdrawal keeps every row readable |
| WithdrawalStore.SaveNeverReplaces | src/main/java/com/nerverless/task/dao/WithdrawalRepository.java:29-40 | saving under an existing id fails and cannot move a row to another status |
| WithdrawalStore.UpdateProcessingIds | src/main/java/com/nerverless/task/dao/WithdrawalRepository.java:43-60 | after an update, the row is pending iff the new state is PROCESSING; every other row keeps its pending status |
| Provider.NewEntry | src/main/java/com/nerverless/task/service/WithdrawalServiceStub.java:24-30 | a new request is headed for COMPLETED or FAILED, finalising between 1 and 10 seconds after registration |
| Provider.RequestWithdrawal | src/main/java/com/nerverless/task/service/WithdrawalServiceStub.java:17-22 | an unknown id is stored; a known id with equal address and amount is accepted without change; with other parameters it is a conflict and nothing changes |
| Provider.StateAt | src/main/java/com/nerverless/task/service/WithdrawalServiceStub.java:41-45 | PROCESSING before the deadline, the drawn terminal state from the deadline on |
| Provider.GetRequestState | src/main/java/com/nerverless/task/service/WithdrawalServiceStub.java:33-39 | a known id gets its state at that time; an unknown id gets the NotFound error |
| Provider.RequestPreservesWellFormed | src/main/java/com/nerverless/task/service/WithdrawalServiceStub.java:17-26 | every stored request stays headed for a terminal state |
| Provider.RequestIdempotent | src/main/java/com/nerverless/task/service/WithdrawalServiceStub.java:17-22 | repeating an accepted registration, at any time and with any draws, changes nothing |
| Provider.StateMonotone | src/main/java/com/nerverless/task/service/WithdrawalServiceStub.java:33-45 | once the provider reports a terminal state, it reports the same state at every later time |
| Provider.FreshRequestTimeline | src/main/java/com/nerverless/task/service/WithdrawalServiceStub.java:17-45 | a fresh request reads PROCESSING for at least a second and is terminal ten seconds later |
| TransactionWorker.FailedWith | src/main/java/com/nerverless/task/workers/TransactionWorker.java:143-144 | a caught store failure gives a FAILED result, and its message can never be mistaken for "Insufficient funds" |
| TransactionWorker.ApplyTransferAsWritten | src/main/java/com/nerverless/task/workers/TransactionWorker.java:122-146 | the transfer as written, in which each account write commits on its own; only the key set and the account invariants are guaranteed |
| TransactionWorker.TransferAsWrittenLosesFunds | src/main/java/com/nerverless/task/workers/TransactionWorker.java:134-137 | as written, a failure of the second write reports FAILED but leaves the source debited, so the ledger total drops by the amount |
| TransactionWorker.Moved | src/main/java/com/nerverless/task/workers/TransactionWorker.java:131-135 | once both writes of a covered transfer land, the source is debited and the destination credited by the amount, reserves and every other account are untouched, and the ledger stays well formed |
| TransactionWorker.ApplyTransfer | src/main/java/com/nerverless/task/workers/TransactionWorker.java:122-146 | COMPLETED iff no store failure, both accounts exist and the source covers the amount; then exactly the two balances move; any failure leaves the ledger unchanged; a planned store failure the transfer reaches is reported as "Transaction failed: " + its message; an unknown account reports "User not found" |
| TransactionWorker.UnreachedTransferFault | src/main/java/com/nerverless/task/workers/TransactionWorker.java:122-146 | a store failure planned at an interaction the transfer never performs (a write after a refusal, a lookup after an unknown source) has no effect on ledger or result |
| TransactionWorker.TransferRefusal | src/main/java/com/nerverless/task/workers/TransactionWorker.java:131-141 | "Insufficient funds" iff both lookups and the rollback succeed and the source balance is below the amount |
| TransactionWorker.TransferConserves | src/main/java/com/nerverless/task/workers/TransactionWorker.java:131-138 | a transfer never creates or destroys money: the ledger total and the two accounts' combined balance are kept |
| TransactionWorker.ApplyReservationAsWritten | src/main/java/com/nerverless/task/workers/TransactionWorker.java:148-170 | the reservation as written, in which the write commits on its own; only the key set and the account invariants are guaranteed |
| TransactionWorker.ReservationAsWrittenStrandsReserve | src/main/java/com/nerverless/task/workers/TransactionWorker.java:159-168 | as written, a failing commit reports FAILED although the amount stays moved into the reserve |
| TransactionWorker.ApplyReservation | src/main/java/com/nerverless/task/workers/TransactionWorker.java:148-170 | PROCESSING iff no store failure, the account exists and its balance covers the amount; then balance falls and reserve rises by the amount, with funds and other accounts unchanged; a failure changes nothing; a planned store failure the reservation reaches is reported as "Withdrawal failed: " + its message |
| TransactionWorker.UnreachedReservationFault | src/main/java/com/nerverless/task/workers/TransactionWorker.java:148-170 | a store failure planned at an interaction the reservation never performs has no effect on ledger or result |
| TransactionWorker.ReservationRefusal | src/main/java/com/nerverless/task/workers/TransactionWorker.java:156-165 | "Insufficient funds" iff the lookup and the rollback succeed and the balance is below the amount |
| TransactionWorker.ReservationConserves | src/main/java/com/nerverless/task/workers/TransactionWorker.java:156-162 | a reservation keeps the ledger total |
| TransactionWorker.MakeReport | src/main/java/com/nerverless/task/workers/TransactionWorker.java:172-181 | the report is stored and returned; if the insert fails, nothing is stored and a FAILED "Transaction failed: cause" report for the same transaction and amount is returned |
| TransactionWorker.ProcessTransfer | src/main/java/com/nerverless/task/workers/TransactionWorker.java:99-103 | exactly one valid report for the transfer, carrying the transfer's status and message, stored unless its insert fails; nothing forwarded; with atomic account writes the ledger total is kept |
| TransactionWorker.ProcessRequest | src/main/java/com/nerverless/task/workers/TransactionWorker.java:105-112 | the request is forwarded iff the reservation succeeded, and then its reserve grew by the amount; without forwarding the ledger is untouched; with atomic account writes the ledger total is kept; one report, which, when the report insert succeeds, carries the reservation's status and message and is PROCESSING exactly when the request was forwarded |
| TransactionWorker.ProcessRelayed | src/main/java/com/nerverless/task/workers/TransactionWorker.java:114-120 | a relayed report is appended unless its insert fails, and then the log is unchanged |
| TransactionWorker.Dispatch | src/main/java/com/nerverless/task/workers/TransactionWorker.java:78-87 | one report per transfer or request, none for an empty poll or an unsupported record, which also leave the state unchanged; the ledger is the one the transfer or reservation leaves, and a request is forwarded exactly when its reservation succeeded; when the report insert succeeds the report is appended to the log and carries the update's status and message, and when it fails the log is unchanged and the report says FAILED |
| TransactionWorker.Iteration | src/main/java/com/nerverless/task/workers/TransactionWorker.java:75-93 | with atomic account writes, one loop turn keeps the ledger valid and its total; the ledger is the one the transfer or reservation leaves; it sends and forwards exactly what acting on the polled message does, so one report per handled message and the request just processed exactly when its reservation succeeded; the log only grows, its first new entry is the message's report unless that insert fails, and its last is the relayed report unless that insert fails |
| TransactionWorker.Run | src/main/java/com/nerverless/task/workers/TransactionWorker.java:75-93 | any sequence of loop turns keeps every account valid |
| TransactionWorker.RunSafety | src/main/java/com/nerverless/task/workers/TransactionWorker.java:75-93 | over any run, with atomic account writes and whatever fails: no account goes negative, the ledger total is conserved, there is one valid report per handled message, and no more forwards than handled messages |
| TransactionWorker.ScenarioTransfer | src/test/java/com/nerverless/task/workers/TransactionWorkerTest.java:52-81 | 1000 and 1000, transfer 100: 900 and 1100, "Transaction completed successfully" |
| TransactionWorker.ScenarioInsufficient | src/test/java/com/nerverless/task/workers/TransactionWorkerTest.java:84-112 | 50 cannot send 100: nothing changes, "Insufficient funds" |
| TransactionWorker.ScenarioStoreError | src/test/java/com/nerverless/task/workers/TransactionWorkerTest.java:115-135 | a lookup failing with "Database error" gives a stored FAILED "Transaction failed: Database error" report and no change |
| TransactionWorker.ScenarioReservation | src/main/java/com/nerverless/task/workers/TransactionWorker.java:156-162 | 1000, withdraw 300: balance 700, reserve 300, "Withdrawal initiated" |
| WithdrawalWorker.Register | src/main/java/com/nerverless/task/workers/WithdrawalWorker.java:68-80 | PROCESSING "Withdrawal request sent" iff the provider accepts the id (new, or re-registered with equal parameters); otherwise FAILED "Withdrawal request failed" and no provider change; acceptance adds only a new id's entry with the request's address and amount, and leaves every other entry unchanged; the report names the request's transaction and amount |
| WithdrawalWorker.RegisterTwice | src/main/java/com/nerverless/task/workers/WithdrawalWorker.java:68-80 | delivering an accepted request again leaves the provider unchanged and reports the same |
| WithdrawalWorker.CheckWithdrawal | src/main/java/com/nerverless/task/workers/WithdrawalWorker.java:104-121 | settles iff no store failure and the provider is terminal; it then writes exactly the provider's state to that row, COMPLETED with "Withdrawal completed" and FAILED with "Withdrawal failed"; otherwise "Withdrawal in progress" and no write; an unknown id escapes as NotFound unless the connection failed first |
| WithdrawalWorker.PendingTail | src/main/java/com/nerverless/task/workers/WithdrawalWorker.java:84-90 | checking one listed row never disturbs the rest of the listing |
| WithdrawalWorker.Pass | src/main/java/com/nerverless/task/workers/WithdrawalWorker.java:82-94 | unlisted rows are untouched; every row either stays or moves from PROCESSING to a terminal state with a message; a pass ends early only on NotFound |
| WithdrawalWorker.PassCrashesOnUnknown | src/main/java/com/nerverless/task/workers/WithdrawalWorker.java:82-94 | a pass ends early exactly when some listed id is unknown to the provider and its connection opened |
| WithdrawalWorker.PassReportsSettled | src/main/java/com/nerverless/task/workers/WithdrawalWorker.java:84-90 | a completed pass sends exactly one report per row it settled, in listing order, carrying that row's transaction, amount, state and message |
| WithdrawalWorker.PassAgreesWithProvider | src/main/java/com/nerverless/task/workers/WithdrawalWorker.java:104-121 | every row a pass changes holds the provider's terminal state at that time |
| WithdrawalWorker.PassSendsTerminal | src/main/java/com/nerverless/task/workers/WithdrawalWorker.java:86-89 | every report sent is valid and never PROCESSING |
| WithdrawalWorker.PassSettlesAll | src/main/java/com/nerverless/task/workers/WithdrawalWorker.java:82-121 | without store failures, once the provider is terminal for every listed id, the pass settles all of them; over a full listing nothing remains pending |
| WithdrawalWorker.PassKeepsFinal | src/main/java/com/nerverless/task/workers/WithdrawalWorker.java:82-94 | a terminal row is never changed again |
| WithdrawalWorker.Iteration | src/main/java/com/nerverless/task/workers/WithdrawalWorker.java:45-62 | a polled message never touches the store; a polled request is registered with the provider and exactly that registration's report is sent; any other record is ignored; an idle poll with a listing is one reconciliation pass, whose table, reports and crash the turn takes over; a failed listing does nothing |
| WithdrawalWorker.FindProcessingAsWritten | src/main/java/com/nerverless/task/dao/WithdrawalRepository.java:55-73 | the listing as written succeeds only when no row is PROCESSING |
| WithdrawalWorker.ReconciliationAsWrittenStalls | src/main/java/com/nerverless/task/workers/WithdrawalWorker.java:82-94 | with the listing as written, an idle turn never settles or reports anything |
| WithdrawalWorker.ReconcileOnce | src/main/java/com/nerverless/task/workers/WithdrawalWorker.java:45-94 | with a correct listing and no store failures, once the provider has finished every pending withdrawal, one idle turn leaves no row PROCESSING |

## Findings

| source | as written | input that shows it | evidently intended | confidence | as-written member | corrected member |
|---|---|---|---|---|---|---|
| src/main/java/com/nerverless/task/workers/TransactionWorker.java:122-146 | the worker opens a connection and turns auto-commit off, but each `update` runs on a fresh auto-committing connection, so commit and rollback guard nothing | both accounts exist, the source covers the amount, the second `update` raises an SQLException | both writes take effect, or neither does | medium; not executed | TransactionWorker.TransferAsWrittenLosesFunds | TransactionWorker.ApplyTransfer |
| src/main/java/com/nerverless/task/workers/TransactionWorker.java:148-170 | the reservation's `update` commits on its own, so a failing `commit` afterwards reports FAILED over a reservation that stays; a FAILED request is never forwarded | the balance covers the amount and `connection.commit()` raises an SQLException | the reservation is undone when the update is reported FAILED | medium; not executed | TransactionWorker.ReservationAsWrittenStrandsReserve | TransactionWorker.ApplyReservation |
| src/main/java/com/nerverless/task/dao/ReportTransactionRepository.java:48 | `ORDER BY created_at, id DESC LIMIT 1` sorts creation time ascending | two reports for one transaction created at different times | the latest report, as the method name says, and as ReportTransactionRepositoryTest.java:79-87 expects (that test calls a method that does not exist, so it is evidence of intent only) | medium; not executed | ReportLog.LatestAsWrittenIsOldest | ReportLog.FindLastByTransactionId |
| src/main/java/com/nerverless/task/dao/WithdrawalRepository.java:57-66 | each row is read by the column `address`, which the SELECT at line 57 does not return (it selects `to_address`), so reading any row fails whatever the table holds | any PROCESSING row in the withdrawal table | every PROCESSING row is listed and reconciled | medium; not executed | WithdrawalWorker.ReconciliationAsWrittenStalls | WithdrawalWorker.ReconcileOnce |

For each finding, the rest of the model uses the corrected behaviour:

- `TransactionWorker.ProcessTransfer` and `TransactionWorker.ProcessRequest` call the atomic `ApplyTransfer` and `ApplyReservation`.
- The reconciliation lemmas take a listing of every PROCESSING row, which is what `WithdrawalStore.FindProcessing` builds.

## What the code does, whether or not it is intended

The model follows the code in each of these places:

- **A COMPLETED or FAILED withdrawal never releases the reserve.**
  - The withdrawal engine only updates the withdrawal row and sends a report (WithdrawalWorker.java:104-121 and 86-89).
  - The transaction engine only stores that report (TransactionWorker.java:114-120).
  - No code path changes the account after the reservation (TransactionWorker.java:148-170).
- **Neither engine saves a withdrawal row.**
  - `WithdrawalWorker.process` only registers with the provider (WithdrawalWorker.java:68-80).
  - `WithdrawalRepository.save` (WithdrawalRepository.java:29-40) has no caller in either engine.
  - So a pass sees only rows stored by other means. The model keeps the store separate and never writes it on registration.
- **An unknown account is reported as "Transaction failed: User not found"** for a transfer, and as "Withdrawal failed: User not found" for a withdrawal.
  - The store raises "User not found" (UserAccountRepository.java:46).
  - The engines prefix it (TransactionWorker.java:143-144 and 167-168).
- **A provider NotFound ends the withdrawal engine's thread.**
  - `getRequestState` throws IllegalArgumentException for an unknown id (WithdrawalServiceStub.java:35-37).
  - `checkProcessingWithdrwals` catches only SQLException (WithdrawalWorker.java:91-93).
  - The model returns this as the `crash` of a pass.
- **A failing commit in `checkWithdrawal` keeps the terminal result** (WithdrawalWorker.java:109-119). The row update has already committed on its own connection.
- **A forwarded request can be reported FAILED.** `process(WithdrawalRequest)` forwards a reserved request before its report is stored (TransactionWorker.java:107-109). If that insert then fails, the report sent is FAILED "Transaction failed: …" (TransactionWorker.java:172-181), although the request is reserved and on its way to the provider.
- **A repeated registration with equal parameters is accepted again.** `putIfAbsent` keeps the first entry and raises no conflict (WithdrawalServiceStub.java:18-21), so the engine reports PROCESSING a second time.
- **TransactionWorkerTest.java:131 expects a rollback on the store-error path.** The catch at TransactionWorker.java:143-144 performs none.
- **Some call sites do not compile against the classes they use**, so they are not part of this model:
  - the `Withdrawal` constructed with five arguments (WithdrawalRepository.java:68);
  - the worker constructors called with other argument lists (Application.java:45, TransactionWorkerTest.java:48);
  - a `Connection` passed where `UserAccountRepository` expects a `DataSource` (UserAccountRepositoryTest.java:46);
  - repository methods that do not exist: ReportService.java:25 and 33, WithdrawalRepositoryTest.java:59, 81 and 99, and ReportTransactionRepositoryTest.java:79, which calls `findLatestByTransactionId`.
- **Findings row 3 cites ReportTransactionRepositoryTest.java:79-87 only as evidence of intent.** That test calls a method that does not exist, so it could never have shown the ascending order.
- **WithdrawalRepositoryTest.java:96-116 expects a second `save` to replace the row.** The INSERT cannot do that, and the model keeps the INSERT.

## Left out

- The `run` loops, the blocking queues, threads, `stop`, interruption and logging. Each loop turn is one `Iteration`, and a queue is the sequence of values a turn receives or emits.
- Configuring and closing connections, the connection pool and the SQL text. Of opening a connection, only its failure is modelled: `OpenConnection` in the account updates and `ConnectionFault` in `checkWithdrawal`. Otherwise only the effect of each repository call, and which call fails, is modelled.
- A failure of the connection's `close()` after a successful commit is not modelled. It would report FAILED over writes that were already committed.
- `BigDecimal` scale. Amounts are integers, so the stub's `Objects.equals` treating 100.0 and 100.00 as different parameters is not modelled.
- `System.currentTimeMillis` and `ThreadLocalRandom`. They are the `now` and `Draw` parameters, with one `now` per pass: the stub reads the clock on every `getRequestState` call (WithdrawalServiceStub.java:43). Since a terminal state never changes (`Provider.StateMonotone`), a later clock could only settle more rows.
- Application.java, DatabaseConfig.java and ReportService.java are not part of this model.
- An SQLException whose message is null. The cause is always a string here.
- WithdrawalStore.Save: the INSERT names an `address` column and no status. For a new id, the model assumes the INSERT succeeds and the fresh row is PROCESSING with no message. For a known id, it fails with a stand-in duplicate-key error (`DuplicateId`). The schema is not part of this model.
- AccountStore.Save: the INSERT fails under a name already stored, with a stand-in duplicate-key error (`DuplicateName`). Whether the schema makes the name unique is not part of this model.
- ReportLog.FindByTransactionId: returns reports in insertion order. The SQL orders by creation time ascending, then id descending, which reverses reports created within the same clock tick.
- WithdrawalWorker.CheckWithdrawal: a failing commit is not a separate fault. It behaves exactly like no fault, as noted above.
- TransactionWorker.Iteration: exceptions other than SQLException are not modelled. Examples are an IllegalArgumentException from a record built over bad stored data, or a NullPointerException on a null balance. Every record here is valid by construction, and every message the engines build is proved non-blank.

=== FILE: account_store.dfy ===
/** The account ledger store (UserAccountRepository) as a map from account name to account.
    SQL text, connections and the pool are not modelled; each repository call is one
    operation on the map, and an SQLException becomes a `Failure` carrying its message. */
module AccountStore {
  import opened Wrappers
  import opened Model

  type Ledger = map<string, UserAccount>

  /** Every row is keyed by its own name and, having been built through the
      validating constructor, holds a non-negative balance and reserve. */
  predicate WellFormed(l: Ledger) {
    forall n :: n in l ==> l[n].name == n && ValidAccount(l[n])
  }

  /** The message of the SQLException raised for an unknown name. */
  const UserNotFound := "User not found"

  /** Stand-in for the database's unique-key error on a duplicate name; the schema is not part of this model. */
  const DuplicateName := "duplicate account name"

  /** `findByName`: the row with that name, or the "User not found" error. */
  function FindByName(l: Ledger, name: string): (r: Outcome<UserAccount, string>)
    ensures r.Success? <==> name in l
    ensures r.Success? ==> r.value == l[name]
    ensures r.Failure? ==> r.error == UserNotFound
  {
    if name in l then Success(l[name]) else Failure(UserNotFound)
  }

  /** `update`: overwrite balance and reserve of the row with the account's name;
      an UPDATE that matches no row changes nothing. */
  function Update(l: Ledger, a: UserAccount): (r: Ledger)
    ensures r.Keys == l.Keys
    ensures forall n :: n in l && n != a.name ==> r[n] == l[n]
    ensures a.name in l ==> r[a.name] == a
    ensures a.name !in l ==> r == l
  {
    if a.name in l then l[a.name := a] else l
  }

  /** `save`: INSERT a new row. */
  function Save(l: Ledger, a: UserAccount): (r: Outcome<Ledger, string>)
    ensures r.Success? <==> a.name !in l
    ensures r.Success? ==> r.value.Keys == l.Keys + {a.name} && r.value[a.name] == a
    ensures r.Success? ==> forall n :: n in l ==> r.value[n] == l[n]
    ensures r.Failure? ==> r.error == DuplicateName
  {
    if a.name in l then Failure(DuplicateName) else Success(l[a.name := a])
  }

  /** `findAll`: every stored row (the order of the SQL result is not modelled). */
  function FindAll(l: Ledger): (r: set<UserAccount>)
    requires WellFormed(l)
    ensures forall a :: a in r <==> a.name in l && l[a.name] == a
  {
    l.Values
  }

  lemma UpdatePreservesWellFormed(l: Ledger, a: UserAccount)
    requires WellFormed(l) && ValidAccount(a)
    ensures WellFormed(Update(l, a))
  {
  }

  lemma SavePreservesWellFormed(l: Ledger, a: UserAccount)
    requires WellFormed(l) && ValidAccount(a)
    ensures Save(l, a).Success? ==> WellFormed(Save(l, a).value)
  {
  }

  /** After `update`, `findByName` returns the new values for that name and the old row for every other name. */
  lemma UpdateThenFind(l: Ledger, a: UserAccount, name: string)
    ensures FindByName(Update(l, a), name) ==
      (if name == a.name && a.name in l then Success(a) else FindByName(l, name))
  {
  }

  /** After `update` of a stored name, `findAll` lists the new row in place of the old one
      and every other row as before; after `save` of a new name it lists one row more. */
  lemma UpdateThenFindAll(l: Ledger, a: UserAccount)
    requires WellFormed(l) && ValidAccount(a) && a.name in l
    ensures WellFormed(Update(l, a))
    ensures FindAll(Update(l, a)) == FindAll(l) - {l[a.name]} + {a}
  {
  }

  lemma SaveThenFindAll(l: Ledger, a: UserAccount)
    requires WellFormed(l) && ValidAccount(a) && a.name !in l
    ensures Save(l, a).Success? && WellFormed(Save(l, a).value)
    ensures FindAll(Save(l, a).value) == FindAll(l) + {a}
  {
  }

  // ---------------------------------------------------------------- total funds

  /** Total money the ledger holds, spendable and reserved, over all accounts. */
  ghost function Total(l: Ledger): int
    decreases |l|
  {
    if |l| == 0 then 0
    else
      var n := Pick(l);
      Funds(l[n]) + Total(l - {n})
  }

  /** Some account name of a non-empty ledger. */
  ghost function Pick(l: Ledger): (n: string)
    requires |l| > 0
    ensures n in l
  {
    var n :| n in l; n
  }

  /** Whichever account `Total` happens to pick first, any account can be split off. */
  lemma {:induction false} TotalSplit(l: Ledger, n: string)
    requires n in l
    ensures Total(l) == Funds(l[n]) + Total(l - {n})
    decreases |l|
  {
    var m := Pick(l);
    if m != n {
      var withoutM := l - {m};
      var withoutN := l - {n};
      assert withoutM.Keys == l.Keys - {m};
      assert withoutN.Keys == l.Keys - {n};
      assert |withoutM| < |l| by { assert |withoutM.Keys| < |l.Keys|; }
      assert |withoutN| < |l| by { assert |withoutN.Keys| < |l.Keys|; }
      assert n in withoutM && withoutM[n] == l[n];
      assert m in withoutN && withoutN[m] == l[m];
      TotalSplit(withoutM, n);
      TotalSplit(withoutN, m);
      assert withoutM - {n} == withoutN - {m};
    }
  }

  /** Replacing one account changes the total by exactly the change in that account's funds. */
  lemma TotalReplace(l: Ledger, n: string, a: UserAccount)
    requires n in l
    ensures Total(l[n := a]) == Total(l) - Funds(l[n]) + Funds(a)
  {
    TotalSplit(l, n);
    TotalSplit(l[n := a], n);
    assert l[n := a] - {n} == l - {n};
  }

  /** An `update` that keeps the updated account's funds keeps the ledger's total. */
  lemma UpdateKeepsTotal(l: Ledger, a: UserAccount)
    requires a.name in l ==> Funds(l[a.name]) == Funds(a)
    ensures Total(Update(l, a)) == Total(l)
  {
    if a.name in l {
      TotalReplace(l, a.name, a);
    }
  }
}

=== FILE: model.dfy ===
/** The value records of the engine and their validating constructors.

    Each Java record checks its fields in its compact constructor and throws
    IllegalArgumentException on the first check that fails. Here a record is a
    datatype holding non-null values, a `Valid...` predicate states the record's
    invariant, and a `New...` function takes the raw constructor arguments
    (`None` standing for Java's `null`) and returns either the record or the
    message of the first check that failed. Amounts are exact decimals in the
    source; here they are integers counted in minor units. */
module Model {
  import opened Wrappers
  import opened Text

  /** An opaque universally unique identifier (java.util.UUID). */
  datatype Uuid = Uuid(bits: nat)

  /** Shared status vocabulary of transfers, withdrawals and reports. */
  datatype TransactionStatus = PROCESSING | COMPLETED | FAILED

  /** The external provider's view of a withdrawal (WithdrawalService.WithdrawalState). */
  datatype WithdrawalState = PROCESSING | COMPLETED | FAILED

  /** Provider-facing handle of a withdrawal and its destination (WithdrawalService records). */
  datatype WithdrawalId = WithdrawalId(value: Uuid)
  datatype Address = Address(value: string)

  /** A string argument that is null or blank. */
  predicate NullOrBlank(s: Option<string>) {
    s.None? || IsBlank(s.value)
  }

  // ---------------------------------------------------------------- TransactionId

  datatype TransactionId = TransactionId(id: Uuid, userId: string)

  predicate ValidTransactionId(t: TransactionId) {
    !IsBlank(t.userId)
  }

  function NewTransactionId(id: Option<Uuid>, userId: Option<string>): (r: Outcome<TransactionId, string>)
    ensures r.Success? <==> id.Some? && !NullOrBlank(userId)
    ensures r.Success? ==> ValidTransactionId(r.value) && r.value.id == id.value && r.value.userId == userId.value
    ensures id.None? ==> r.Failure? && r.error == "id cannot be null"
    ensures id.Some? && NullOrBlank(userId) ==> r.Failure? && r.error == "userId cannot be null or empty"
  {
    if id.None? then Failure("id cannot be null")
    else if NullOrBlank(userId) then Failure("userId cannot be null or empty")
    else Success(TransactionId(id.value, userId.value))
  }

  // ---------------------------------------------------------------- Result

  /** An operation's outcome: a status and a human-readable message. */
  datatype Result<T> = Result(value: T, message: string)

  predicate ValidResult<T>(r: Result<T>) {
    !IsBlank(r.message)
  }

  function NewResult<T>(value: Option<T>, message: Option<string>): (r: Outcome<Result<T>, string>)
    ensures r.Success? <==> value.Some? && !NullOrBlank(message)
    ensures r.Success? ==> ValidResult(r.value) && r.value.value == value.value && r.value.message == message.value
    ensures value.None? ==> r.Failure? && r.error == "value cannot be null"
    ensures value.Some? && NullOrBlank(message) ==> r.Failure? && r.error == "message cannot be null or empty"
  {
    if value.None? then Failure("value cannot be null")
    else if NullOrBlank(message) then Failure("message cannot be null or empty")
    else Success(Result(value.value, message.value))
  }

  // ---------------------------------------------------------------- UserAccount

  /** A named account: spendable balance and funds reserved for in-flight withdrawals. */
  datatype UserAccount = UserAccount(name: string, balance: int, reserve: int)

  predicate ValidAccount(a: UserAccount) {
    a.balance >= 0 && a.reserve >= 0
  }

  /** Total funds an account holds, spendable or reserved. */
  function Funds(a: UserAccount): int {
    a.balance + a.reserve
  }

  /** The canonical three-argument constructor. */
  function NewUserAccount(name: string, balance: int, reserve: int): (r: Outcome<UserAccount, string>)
    ensures r.Success? <==> balance >= 0 && reserve >= 0
    ensures r.Success? ==> ValidAccount(r.value) && r.value.name == name && r.value.balance == balance && r.value.reserve == reserve
    ensures balance < 0 ==> r.Failure? && r.error == "Balance cannot be negative"
    ensures balance >= 0 && reserve < 0 ==> r.Failure? && r.error == "Reserve cannot be negative"
  {
    if balance < 0 then Failure("Balance cannot be negative")
    else if reserve < 0 then Failure("Reserve cannot be negative")
    else Success(UserAccount(name, balance, reserve))
  }

  /** `new UserAccount(name, balance)`: nothing reserved. */
  function NewFundedAccount(name: string, balance: int): (r: Outcome<UserAccount, string>)
    ensures r.Success? <==> balance >= 0
    ensures r.Success? ==> ValidAccount(r.value) && r.value.name == name && r.value.balance == balance && r.value.reserve == 0
    ensures r.Failure? ==> r.error == "Balance cannot be negative"
  {
    NewUserAccount(name, balance, 0)
  }

  /** `new UserAccount(name)`: an empty account; it cannot fail. */
  function NewEmptyAccount(name: string): (r: UserAccount)
    ensures ValidAccount(r) && Funds(r) == 0 && r.name == name
  {
    NewUserAccount(name, 0, 0).value
  }

  /** `withBalance`: the same account with another balance, re-validated. */
  function WithBalance(a: UserAccount, balance: int): (r: Outcome<UserAccount, string>)
    requires ValidAccount(a)
    ensures r.Success? <==> balance >= 0
    ensures r.Success? ==> ValidAccount(r.value) && r.value.name == a.name && r.value.reserve == a.reserve && r.value.balance == balance
    ensures r.Failure? ==> r.error == "Balance cannot be negative"
  {
    NewUserAccount(a.name, balance, a.reserve)
  }

  /** `withReserve`: the same account with another reserve, re-validated. */
  function WithReserve(a: UserAccount, reserve: int): (r: Outcome<UserAccount, string>)
    requires ValidAccount(a)
    ensures r.Success? <==> reserve >= 0
    ensures r.Success? ==> ValidAccount(r.value) && r.value.name == a.name && r.value.balance == a.balance && r.value.reserve == reserve
    ensures r.Failure? ==> r.error == "Reserve cannot be negative"
  {
    NewUserAccount(a.name, a.balance, reserve)
  }

  // ---------------------------------------------------------------- Transactions

  /** Move `amount` from one account's balance to another's. */
  datatype Transfer = Transfer(transactionId: TransactionId, fromAccountName: string, toAccountName: string, amount: int)

  /** Send `amount` of an account's balance to an external address. */
  datatype WithdrawalRequest = WithdrawalRequest(transactionId: TransactionId, accountName: string, toAddress: string, amount: int)

  /** A withdrawal as it is recorded once registered. */
  datatype Withdrawal = Withdrawal(withdrawalId: WithdrawalId, transactionId: TransactionId, accountName: string,
                                   toAddress: string, amount: int, status: TransactionStatus)

  /** The `Transaction` interface: every record that carries a transaction id and an amount.
      `Withdrawal` implements it too, so it can appear on a transaction queue. */
  datatype Transaction =
    | TransferTx(transfer: Transfer)
    | RequestTx(request: WithdrawalRequest)
    | WithdrawalTx(withdrawal: Withdrawal)
  {
    function TxId(): TransactionId {
      match this
      case TransferTx(t) => t.transactionId
      case RequestTx(w) => w.transactionId
      case WithdrawalTx(w) => w.transactionId
    }

    function Amount(): int {
      match this
      case TransferTx(t) => t.amount
      case RequestTx(w) => w.amount
      case WithdrawalTx(w) => w.amount
    }
  }

  predicate ValidTransfer(t: Transfer) {
    && ValidTransactionId(t.transactionId)
    && !IsBlank(t.fromAccountName)
    && !IsBlank(t.toAccountName)
    && t.fromAccountName != t.toAccountName
    && t.amount > 0
  }

  predicate ValidRequest(w: WithdrawalRequest) {
    && ValidTransactionId(w.transactionId)
    && !IsBlank(w.accountName)
    && !IsBlank(w.toAddress)
    && w.amount > 0
  }

  predicate ValidWithdrawal(w: Withdrawal) {
    && ValidTransactionId(w.transactionId)
    && !IsBlank(w.accountName)
    && !IsBlank(w.toAddress)
    && w.amount > 0
  }

  predicate ValidTransaction(t: Transaction) {
    match t
    case TransferTx(x) => ValidTransfer(x)
    case RequestTx(x) => ValidRequest(x)
    case WithdrawalTx(x) => ValidWithdrawal(x)
  }

  /** A TransactionId argument is either null or an already constructed, hence valid, record. */
  predicate ConstructedId(id: Option<TransactionId>) {
    id.Some? ==> ValidTransactionId(id.value)
  }

  function NewTransfer(transactionId: Option<TransactionId>, fromAccountName: Option<string>,
                       toAccountName: Option<string>, amount: Option<int>): (r: Outcome<Transfer, string>)
    requires ConstructedId(transactionId)
    ensures r.Success? <==>
      && transactionId.Some?
      && !NullOrBlank(fromAccountName) && !NullOrBlank(toAccountName)
      && fromAccountName.value != toAccountName.value
      && amount.Some? && amount.value > 0
    ensures r.Success? ==> ValidTransfer(r.value)
    ensures r.Success? ==>
      r.value == Transfer(transactionId.value, fromAccountName.value, toAccountName.value, amount.value)
    ensures transactionId.None? ==> r.Failure? && r.error == "transactionId cannot be null"
    ensures transactionId.Some? && NullOrBlank(fromAccountName) ==>
      r.Failure? && r.error == "fromAccountName cannot be null or empty"
    ensures transactionId.Some? && !NullOrBlank(fromAccountName) && NullOrBlank(toAccountName) ==>
      r.Failure? && r.error == "toAccountName cannot be null or empty"
    ensures transactionId.Some? && !NullOrBlank(fromAccountName) && !NullOrBlank(toAccountName)
            && fromAccountName.value == toAccountName.value ==>
      r.Failure? && r.error == "fromAccountName and toAccountName cannot be the same"
    ensures transactionId.Some? && !NullOrBlank(fromAccountName) && !NullOrBlank(toAccountName)
            && fromAccountName.value != toAccountName.value && (amount.None? || amount.value <= 0) ==>
      r.Failure? && r.error == "amount must be greater than zero"
  {
    if transactionId.None? then Failure("transactionId cannot be null")
    else if NullOrBlank(fromAccountName) then Failure("fromAccountName cannot be null or empty")
    else if NullOrBlank(toAccountName) then Failure("toAccountName cannot be null or empty")
    else if fromAccountName.value == toAccountName.value then Failure("fromAccountName and toAccountName cannot be the same")
    else if amount.None? || amount.value <= 0 then Failure("amount must be greater than zero")
    else Success(Transfer(transactionId.value, fromAccountName.value, toAccountName.value, amount.value))
  }

  function NewWithdrawalRequest(transactionId: Option<TransactionId>, accountName: Option<string>,
                                toAddress: Option<string>, amount: Option<int>): (r: Outcome<WithdrawalRequest, string>)
    requires ConstructedId(transactionId)
    ensures r.Success? <==>
      && transactionId.Some?
      && !NullOrBlank(accountName) && !NullOrBlank(toAddress)
      && amount.Some? && amount.value > 0
    ensures r.Success? ==> ValidRequest(r.value)
    ensures r.Success? ==>
      r.value == WithdrawalRequest(transactionId.value, accountName.value, toAddress.value, amount.value)
    ensures transactionId.None? ==> r.Failure? && r.error == "transactionId cannot be null"
    ensures transactionId.Some? && NullOrBlank(accountName) ==>
      r.Failure? && r.error == "accountName cannot be null or empty"
    ensures transactionId.Some? && !NullOrBlank(accountName) && NullOrBlank(toAddress) ==>
      r.Failure? && r.error == "toAddress cannot be null or empty"
    ensures transactionId.Some? && !NullOrBlank(accountName) && !NullOrBlank(toAddress)
            && (amount.None? || amount.value <= 0) ==>
      r.Failure? && r.error == "amount must be greater than zero"
  {
    if transactionId.None? then Failure("transactionId cannot be null")
    else if NullOrBlank(accountName) then Failure("accountName cannot be null or empty")
    else if NullOrBlank(toAddress) then Failure("toAddress cannot be null or empty")
    else if amount.None? || amount.value <= 0 then Failure("amount must be greater than zero")
    else Success(WithdrawalRequest(transactionId.value, accountName.value, toAddress.value, amount.value))
  }

  function NewWithdrawal(withdrawalId: Option<WithdrawalId>, transactionId: Option<TransactionId>,
                         accountName: Option<string>, toAddress: Option<string>, amount: Option<int>,
                         status: Option<TransactionStatus>): (r: Outcome<Withdrawal, string>)
    requires ConstructedId(transactionId)
    ensures r.Success? <==>
      && withdrawalId.Some? && transactionId.Some?
      && !NullOrBlank(accountName) && !NullOrBlank(toAddress)
      && amount.Some? && amount.value > 0
      && status.Some?
    ensures r.Success? ==> ValidWithdrawal(r.value)
    ensures r.Success? ==>
      r.value == Withdrawal(withdrawalId.value, transactionId.value, accountName.value, toAddress.value,
                               amount.value, status.value)
    ensures withdrawalId.None? ==> r.Failure? && r.error == "withdrawalId cannot be null"
    ensures withdrawalId.Some? && transactionId.None? ==> r.Failure? && r.error == "transactionId cannot be null"
    ensures withdrawalId.Some? && transactionId.Some? && NullOrBlank(accountName) ==>
      r.Failure? && r.error == "accountName cannot be null or empty"
    ensures withdrawalId.Some? && transactionId.Some? && !NullOrBlank(accountName) && NullOrBlank(toAddress) ==>
      r.Failure? && r.error == "toAddress cannot be null or empty"
    ensures withdrawalId.Some? && transactionId.Some? && !NullOrBlank(accountName) && !NullOrBlank(toAddress)
            && (amount.None? || amount.value <= 0) ==>
      r.Failure? && r.error == "amount must be greater than zero"
    ensures withdrawalId.Some? && transactionId.Some? && !NullOrBlank(accountName) && !NullOrBlank(toAddress)
            && amount.Some? && amount.value > 0 && status.None? ==>
      r.Failure? && r.error == "status cannot be null"
  {
    if withdrawalId.None? then Failure("withdrawalId cannot be null")
    else if transactionId.None? then Failure("transactionId cannot be null")
    else if NullOrBlank(accountName) then Failure("accountName cannot be null or empty")
    else if NullOrBlank(toAddress) then Failure("toAddress cannot be null or empty")
    else if amount.None? || amount.value <= 0 then Failure("amount must be greater than zero")
    else if status.None? then Failure("status cannot be null")
    else Success(Withdrawal(withdrawalId.value, transactionId.value, accountName.value, toAddress.value,
                            amount.value, status.value))
  }

  // ---------------------------------------------------------------- Report

  /** One status event about a transaction, as the report log stores it. */
  datatype Report = Report(transactionId: TransactionId, amount: int, status: TransactionStatus, message: string)

  predicate ValidReport(r: Report) {
    ValidTransactionId(r.transactionId) && r.amount > 0 && !IsBlank(r.message)
  }

  function NewReport(transactionId: Option<TransactionId>, amount: Option<int>,
                     status: Option<TransactionStatus>, message: Option<string>): (r: Outcome<Report, string>)
    requires ConstructedId(transactionId)
    ensures r.Success? <==>
      transactionId.Some? && amount.Some? && amount.value > 0 && status.Some? && !NullOrBlank(message)
    ensures r.Success? ==> ValidReport(r.value)
    ensures r.Success? ==>
      r.value == Report(transactionId.value, amount.value, status.value, message.value)
    ensures transactionId.None? ==> r.Failure? && r.error == "transaction cannot be null"
    ensures transactionId.Some? && (amount.None? || amount.value <= 0) ==>
      r.Failure? && r.error == "amount must be greater than zero"
    ensures transactionId.Some? && amount.Some? && amount.value > 0 && status.None? ==>
      r.Failure? && r.error == "status cannot be null"
    ensures transactionId.Some? && amount.Some? && amount.value > 0 && status.Some? && NullOrBlank(message) ==>
      r.Failure? && r.error == "message cannot be null or empty"
  {
    if transactionId.None? then Failure("transaction cannot be null")
    else if amount.None? || amount.value <= 0 then Failure("amount must be greater than zero")
    else if status.None? then Failure("status cannot be null")
    else if NullOrBlank(message) then Failure("message cannot be null or empty")
    else Success(Report(transactionId.value, amount.value, status.value, message.value))
  }

  // ---------------------------------------------------------------- constructors against invariants

  /** Each validating constructor, given the fields of a record, accepts them exactly when the
      record satisfies its invariant, and then rebuilds that very record. */
  lemma TransactionIdRoundTrip(t: TransactionId)
    ensures var r := NewTransactionId(Some(t.id), Some(t.userId));
            (r.Success? <==> ValidTransactionId(t)) && (r.Success? ==> r.value == t)
  {
  }

  lemma TransferRoundTrip(t: Transfer)
    requires ValidTransactionId(t.transactionId)
    ensures var r := NewTransfer(Some(t.transactionId), Some(t.fromAccountName), Some(t.toAccountName), Some(t.amount));
            (r.Success? <==> ValidTransfer(t)) && (r.Success? ==> r.value == t)
  {
  }

  lemma WithdrawalRequestRoundTrip(w: WithdrawalRequest)
    requires ValidTransactionId(w.transactionId)
    ensures var r := NewWithdrawalRequest(Some(w.transactionId), Some(w.accountName), Some(w.toAddress), Some(w.amount));
            (r.Success? <==> ValidRequest(w)) && (r.Success? ==> r.value == w)
  {
  }

  lemma WithdrawalRoundTrip(w: Withdrawal)
    requires ValidTransactionId(w.transactionId)
    ensures var r := NewWithdrawal(Some(w.withdrawalId), Some(w.transactionId), Some(w.accountName), Some(w.toAddress),
                                   Some(w.amount), Some(w.status));
            (r.Success? <==> ValidWithdrawal(w)) && (r.Success? ==> r.value == w)
  {
  }

  lemma ReportRoundTrip(r: Report)
    requires ValidTransactionId(r.transactionId)
    ensures var n := NewReport(Some(r.transactionId), Some(r.amount), Some(r.status), Some(r.message));
            (n.Success? <==> ValidReport(r)) && (n.Success? ==> n.value == r)
  {
  }

  lemma UserAccountRoundTrip(a: UserAccount)
    ensures var r := NewUserAccount(a.name, a.balance, a.reserve);
            (r.Success? <==> ValidAccount(a)) && (r.Success? ==> r.value == a)
  {
  }

  /** `withBalance` then `withReserve` with the account's own values gives the account back. */
  lemma WithersRoundTrip(a: UserAccount)
    requires ValidAccount(a)
    ensures WithBalance(a, a.balance) == Success(a) && WithReserve(a, a.reserve) == Success(a)
  {
  }
}

=== FILE: provider.dfy ===
/** The external withdrawal provider as its stub (WithdrawalServiceStub) implements it:
    a map from withdrawal id to a request whose state reads PROCESSING until a deadline
    and a fixed terminal state from then on. The stub's wall clock and random draws are
    parameters here. */
module Provider {
  import opened Wrappers
  import opened Model

  /** A registered request: the terminal state it will reach, when, and the parameters it was registered with. */
  datatype Entry = Entry(state: WithdrawalState, finaliseAt: int, address: Address, amount: int)

  type Requests = map<WithdrawalId, Entry>

  /** The exceptions the stub throws: IllegalStateException on a conflicting
      re-registration, IllegalArgumentException on an unknown id. */
  datatype ProviderError = Conflict(id: WithdrawalId) | NotFound(id: WithdrawalId)

  /** The two random draws made for a registration: a fair coin for the terminal
      state, and a delay drawn from [1000, 10000) milliseconds. */
  datatype Draw = Draw(completes: bool, delay: int)

  predicate ValidDraw(d: Draw) {
    1000 <= d.delay < 10000
  }

  predicate IsTerminal(s: WithdrawalState) {
    s != WithdrawalState.PROCESSING
  }

  /** Every stored request is headed for a terminal state. */
  predicate WellFormed(p: Requests) {
    forall id :: id in p ==> IsTerminal(p[id].state)
  }

  /** The entry a registration at time `now` creates. */
  function NewEntry(address: Address, amount: int, now: int, d: Draw): (e: Entry)
    requires ValidDraw(d)
    ensures IsTerminal(e.state)
    ensures now + 1000 <= e.finaliseAt < now + 10000
    ensures e.address == address && e.amount == amount
  {
    Entry(if d.completes then WithdrawalState.COMPLETED else WithdrawalState.FAILED, now + d.delay, address, amount)
  }

  /** `requestWithdrawal`: store a new entry unless the id is known (putIfAbsent); a known id
      registered again with equal parameters is accepted without change, with other
      parameters it is a conflict. */
  function RequestWithdrawal(p: Requests, id: WithdrawalId, address: Address, amount: int, now: int, d: Draw)
    : (r: Outcome<Requests, ProviderError>)
    requires ValidDraw(d)
    ensures id !in p ==> r.Success? && id in r.value
    ensures id !in p ==> r.value[id] == NewEntry(address, amount, now, d)
    ensures id in p ==> (r.Success? <==> p[id].address == address && p[id].amount == amount)
    ensures id in p && r.Success? ==> r.value == p
    ensures r.Failure? ==> r.error == Conflict(id)
    ensures r.Success? ==> r.value.Keys == p.Keys + {id}
    ensures r.Success? ==> forall k :: k in p && k != id ==> r.value[k] == p[k]
  {
    if id !in p then Success(p[id := NewEntry(address, amount, now, d)])
    else if p[id].address != address || p[id].amount != amount then Failure(Conflict(id))
    else Success(p)
  }

  /** `Withdrawal.finalState`: PROCESSING before the deadline, the stored state from it on. */
  function StateAt(e: Entry, now: int): (s: WithdrawalState)
    ensures now < e.finaliseAt ==> s == WithdrawalState.PROCESSING
    ensures e.finaliseAt <= now ==> s == e.state
  {
    if e.finaliseAt <= now then e.state else WithdrawalState.PROCESSING
  }

  /** `getRequestState`: the entry's state at time `now`, or NotFound for an unknown id. */
  function GetRequestState(p: Requests, id: WithdrawalId, now: int): (r: Outcome<WithdrawalState, ProviderError>)
    ensures r.Success? <==> id in p
    ensures r.Failure? ==> r.error == NotFound(id)
    ensures r.Success? ==> r.value == StateAt(p[id], now)
  {
    if id in p then Success(StateAt(p[id], now)) else Failure(NotFound(id))
  }

  lemma RequestPreservesWellFormed(p: Requests, id: WithdrawalId, address: Address, amount: int, now: int, d: Draw)
    requires WellFormed(p) && ValidDraw(d)
    ensures var r := RequestWithdrawal(p, id, address, amount, now, d);
            r.Success? ==> WellFormed(r.value)
  {
  }

  /** Registration is idempotent: repeating an accepted registration, at any later time and
      whatever the random draws, changes nothing. */
  lemma RequestIdempotent(p: Requests, id: WithdrawalId, address: Address, amount: int,
                          now1: int, d1: Draw, now2: int, d2: Draw)
    requires ValidDraw(d1) && ValidDraw(d2)
    requires RequestWithdrawal(p, id, address, amount, now1, d1).Success?
    ensures var once := RequestWithdrawal(p, id, address, amount, now1, d1).value;
            RequestWithdrawal(once, id, address, amount, now2, d2) == Success(once)
  {
  }

  /** A state, once terminal, is the state at every later time: the provider's answer is monotone in time. */
  lemma StateMonotone(p: Requests, id: WithdrawalId, t1: int, t2: int)
    requires t1 <= t2
    requires GetRequestState(p, id, t1).Success? && IsTerminal(GetRequestState(p, id, t1).value)
    ensures GetRequestState(p, id, t2) == GetRequestState(p, id, t1)
  {
  }

  /** A fresh registration reads PROCESSING for at least one second, and is terminal ten seconds later. */
  lemma FreshRequestTimeline(p: Requests, id: WithdrawalId, address: Address, amount: int, now: int, d: Draw, later: int)
    requires ValidDraw(d) && id !in p
    ensures var q := RequestWithdrawal(p, id, address, amount, now, d).value;
            && (later < now + 1000 ==> GetRequestState(q, id, later) == Success(WithdrawalState.PROCESSING))
            && (now + 10000 <= later ==> GetRequestState(q, id, later).Success? && IsTerminal(GetRequestState(q, id, later).value))
  {
  }
}

=== FILE: report_log.dfy ===
/** The report log (ReportTransactionRepository) as an append-only sequence of reports,
    oldest first. */
module ReportLog {
  import opened Wrappers
  import opened Model

  type Log = seq<Report>

  /** `insert`: append one report. `fault` is the message of the SQLException the
      database raises, if it raises one; then nothing is stored. */
  function Insert(log: Log, r: Report, fault: Option<string>): (res: Outcome<Log, string>)
    ensures res.Success? <==> fault.None?
    ensures res.Success? ==> |res.value| == |log| + 1 && res.value[..|log|] == log && res.value[|log|] == r
    ensures res.Failure? ==> res.error == fault.value
  {
    if fault.Some? then Failure(fault.value) else Success(log + [r])
  }

  /** `findByTransactionId`: the reports whose transaction id is `id`, in insertion order. */
  function FindByTransactionId(log: Log, id: Uuid): (r: seq<Report>)
    ensures forall x :: x in r ==> x in log && x.transactionId.id == id
    ensures forall i :: 0 <= i < |log| && log[i].transactionId.id == id ==> log[i] in r
    decreases |log|
  {
    if |log| == 0 then []
    else
      var last := log[|log| - 1];
      FindByTransactionId(log[..|log| - 1], id) + (if last.transactionId.id == id then [last] else [])
  }

  /** The position of the last report for `id`, if there is one. */
  function LastIndex(log: Log, id: Uuid): (r: Option<nat>)
    ensures r.None? <==> forall i :: 0 <= i < |log| ==> log[i].transactionId.id != id
    ensures r.Some? ==> r.value < |log| && log[r.value].transactionId.id == id
    ensures r.Some? ==> forall j :: r.value < j < |log| ==> log[j].transactionId.id != id
    decreases |log|
  {
    if |log| == 0 then None
    else if log[|log| - 1].transactionId.id == id then Some(|log| - 1)
    else LastIndex(log[..|log| - 1], id)
  }

  /** `findLastByTransactionId`: the latest report inserted for `id`, if there is one. */
  function FindLastByTransactionId(log: Log, id: Uuid): (r: Option<Report>)
    ensures r.None? <==> forall i :: 0 <= i < |log| ==> log[i].transactionId.id != id
    ensures r.Some? ==> exists i :: 0 <= i < |log| && log[i] == r.value && r.value.transactionId.id == id
                                   && forall j :: i < j < |log| ==> log[j].transactionId.id != id
  {
    var k := LastIndex(log, id);
    if k.None? then None else Some(log[k.value])
  }

  /** The latest report for an id is the last of the reports listed for it. */
  lemma {:induction false} LastIsLastListed(log: Log, id: Uuid)
    ensures var listed := FindByTransactionId(log, id);
            FindLastByTransactionId(log, id) == if |listed| == 0 then None else Some(listed[|listed| - 1])
    decreases |log|
  {
    if |log| > 0 && log[|log| - 1].transactionId.id != id {
      LastIsLastListed(log[..|log| - 1], id);
    }
  }

  /** A successful insert makes the new report the latest one for its id, and lists it last. */
  lemma InsertThenFind(log: Log, r: Report)
    ensures var after := Insert(log, r, None).value;
            && FindLastByTransactionId(after, r.transactionId.id) == Some(r)
            && FindByTransactionId(after, r.transactionId.id) == FindByTransactionId(log, r.transactionId.id) + [r]
  {
    var after := log + [r];
    assert after[..|log|] == log;
  }

  /** Inserting a report never changes what is listed for any other id. */
  lemma InsertKeepsOthers(log: Log, r: Report, id: Uuid)
    requires id != r.transactionId.id
    ensures FindByTransactionId(Insert(log, r, None).value, id) == FindByTransactionId(log, id)
    ensures FindLastByTransactionId(Insert(log, r, None).value, id) == FindLastByTransactionId(log, id)
  {
    var after := log + [r];
    assert after[..|log|] == log;
  }

  // ---------------------------------------------------------------- the query as written

  /** `findLastByTransactionId` as its query is written: `ORDER BY created_at, id DESC LIMIT 1`
      sorts by creation time ascending and only breaks ties by the newer row, so it returns
      the position of the matching row created earliest. `createdAt[i]` is the creation time
      of `log[i]`; positions follow insertion, as the auto-increment id does. */
  function FindLastAsWritten(log: Log, createdAt: seq<int>, id: Uuid): (r: Option<nat>)
    requires |createdAt| == |log|
    ensures r.None? <==> forall i :: 0 <= i < |log| ==> log[i].transactionId.id != id
    ensures r.Some? ==> r.value < |log| && log[r.value].transactionId.id == id
    ensures r.Some? ==> forall j :: 0 <= j < |log| && log[j].transactionId.id == id ==>
              createdAt[r.value] < createdAt[j] || (createdAt[r.value] == createdAt[j] && j <= r.value)
    decreases |log|
  {
    if |log| == 0 then None
    else
      var k := |log| - 1;
      var rest := FindLastAsWritten(log[..k], createdAt[..k], id);
      if log[k].transactionId.id != id then rest
      else if rest.Some? && createdAt[rest.value] < createdAt[k] then rest
      else Some(k)
  }

  /** With a clock that moves between inserts, the query as written returns the first report
      ever stored for the id, never a later one. */
  lemma AsWrittenPicksOldest(log: Log, createdAt: seq<int>, id: Uuid)
    requires |createdAt| == |log|
    requires forall i, j :: 0 <= i < j < |log| ==> createdAt[i] < createdAt[j]
    ensures var r := FindLastAsWritten(log, createdAt, id);
            r.Some? ==> forall j :: 0 <= j < r.value ==> log[j].transactionId.id != id
  {
  }

  /** Two reports for one transaction stored a second apart: the query as written returns the
      older one, while the latest is the newer one. */
  lemma LatestAsWrittenIsOldest(a: Report, b: Report)
    requires a.transactionId.id == b.transactionId.id && a != b
    ensures FindLastAsWritten([a, b], [1000, 2000], a.transactionId.id) == Some(0)
    ensures FindLastByTransactionId([a, b], a.transactionId.id) == Some(b)
  {
    assert [a, b][..1] == [a];
  }
}

=== FILE: text.dfy ===
/** Strings as Java's `String.isBlank` sees them. */
module Text {

  /** Java's `Character.isWhitespace`: the Unicode space, line and paragraph
      separators except the three no-break spaces (U+00A0, U+2007, U+202F),
      plus the control characters TAB, LF, VT, FF, CR and U+001C..U+001F. */
  predicate IsWhitespace(c: char) {
    || ('\t' <= c <= '\r')
    || ('\U{1C}' <= c <= ' ')
    || c == '\U{1680}'
    || ('\U{2000}' <= c <= '\U{200A}' && c != '\U{2007}')
    || c == '\U{2028}' || c == '\U{2029}'
    || c == '\U{205F}' || c == '\U{3000}'
  }

  /** `s.isBlank()`: empty, or white space only. */
  predicate IsBlank(s: string) {
    forall i :: 0 <= i < |s| ==> IsWhitespace(s[i])
  }

  /** A string that starts with a visible character stays non-blank whatever follows it;
      this is what keeps every "<prefix>" + cause message acceptable to the records that
      refuse blank messages. */
  lemma PrefixedNotBlank(prefix: string, rest: string)
    requires |prefix| > 0 && !IsWhitespace(prefix[0])
    ensures !IsBlank(prefix + rest)
  {
    assert (prefix + rest)[0] == prefix[0];
  }

  /** A string whose first character is visible is not blank. */
  lemma LeadingNotBlank(s: string)
    requires |s| > 0 && !IsWhitespace(s[0])
    ensures !IsBlank(s)
  {
  }
}

=== FILE: transaction_worker.dfy ===
/** The transaction engine (TransactionWorker): one loop iteration as a pure step.

    An iteration takes at most one message from the transaction queue, applies it to the
    account ledger, stores and sends exactly one report for it, forwards an accepted
    withdrawal request, and then stores at most one report relayed from the withdrawal
    engine. Queues become returned sequences; store failures are an explicit fault plan. */
module TransactionWorker {
  import opened Wrappers
  import opened Text
  import opened Model
  import opened AccountStore
  import opened ReportLog

  /** A store failure planned for one account update: the `at`-th store interaction of the
      update (numbered below) raises an SQLException whose message is `cause`. */
  datatype Fault = Fault(at: nat, cause: string)

  // Store interactions of `updateUserAccount`, in program order. Index 0, opening the
  // connection, is shared by both overloads; the last one is the commit or the rollback.
  const OpenConnection: nat := 0
  const FindFrom: nat := 1
  const FindTo: nat := 2
  const UpdateFrom: nat := 3
  const UpdateTo: nat := 4
  const EndTransfer: nat := 5
  const FindAccount: nat := 1
  const UpdateAccount: nat := 2
  const EndReservation: nat := 3

  predicate FailsAt(f: Option<Fault>, k: nat) {
    f.Some? && f.value.at == k
  }

  /** No planned failure among the first `k + 1` interactions. */
  predicate ClearThrough(f: Option<Fault>, k: nat) {
    f.None? || f.value.at > k
  }

  /** The transfer performs store interaction `k`: both lookups are always attempted in
      turn, the writes only when both accounts exist and the source covers the amount, and
      the closing commit or rollback whenever both accounts were found. */
  predicate TransferReaches(l: Ledger, t: Transfer, k: nat) {
    || k == OpenConnection || k == FindFrom
    || (k == FindTo && t.fromAccountName in l)
    || ((k == UpdateFrom || k == UpdateTo) && t.fromAccountName in l && t.toAccountName in l
        && l[t.fromAccountName].balance >= t.amount)
    || (k == EndTransfer && t.fromAccountName in l && t.toAccountName in l)
  }

  /** The reservation performs store interaction `k`: the lookup always, the write only when
      the balance covers the amount, and the commit or rollback whenever the account was found. */
  predicate ReservationReaches(l: Ledger, w: WithdrawalRequest, k: nat) {
    || k == OpenConnection || k == FindAccount
    || (k == UpdateAccount && w.accountName in l && l[w.accountName].balance >= w.amount)
    || (k == EndReservation && w.accountName in l)
  }

  const TransferFailed := "Transaction failed: "
  const WithdrawalFailed := "Withdrawal failed: "
  const TransferDone := "Transaction completed successfully"
  const Insufficient := "Insufficient funds"
  const ReservationDone := "Withdrawal initiated"

  /** `message` begins with `prefix`. */
  predicate HasPrefix(message: string, prefix: string) {
    |prefix| <= |message| && message[..|prefix|] == prefix
  }

  /** The FAILED result a caught SQLException produces; its message can never be mistaken
      for the insufficient-funds one. */
  function FailedWith(prefix: string, cause: string): (r: Result<TransactionStatus>)
    requires prefix == TransferFailed || prefix == WithdrawalFailed
    ensures r.value == TransactionStatus.FAILED && r.message == prefix + cause
    ensures HasPrefix(r.message, prefix) && r.message != Insufficient
    ensures ValidResult(r)
  {
    PrefixedNotBlank(prefix, cause);
    var message := prefix + cause;
    assert message[0] != Insufficient[0];
    assert message[..|prefix|] == prefix;
    Result(TransactionStatus.FAILED, message)
  }

  /** The result of an update that ran to its end without a store failure. */
  function Concluded(status: TransactionStatus, message: string): (r: Result<TransactionStatus>)
    requires message == TransferDone || message == Insufficient || message == ReservationDone
    ensures r.value == status && r.message == message
    ensures ValidResult(r)
  {
    assert !IsWhitespace(message[0]);
    Result(status, message)
  }

  /** `findByName` as the `k`-th interaction of an update. */
  function Lookup(l: Ledger, name: string, f: Option<Fault>, k: nat): (r: Outcome<UserAccount, string>)
    ensures r.Success? <==> !FailsAt(f, k) && name in l
    ensures r.Success? ==> r.value == l[name]
    ensures r.Failure? && !FailsAt(f, k) ==> r.error == UserNotFound
    ensures r.Failure? && FailsAt(f, k) ==> r.error == f.value.cause
  {
    if FailsAt(f, k) then Failure(f.value.cause) else FindByName(l, name)
  }

  /** The ledger after an account update, and the update's result. */
  datatype Applied = Applied(ledger: Ledger, result: Result<TransactionStatus>)

  // ---------------------------------------------------------------- transfer

  /** The two accounts a transfer of `t` would write: source debited, destination credited. */
  function Debited(l: Ledger, t: Transfer): (a: UserAccount)
    requires WellFormed(l) && ValidTransfer(t)
    requires t.fromAccountName in l && l[t.fromAccountName].balance >= t.amount
    ensures ValidAccount(a) && a.name == t.fromAccountName
    ensures a.balance == l[t.fromAccountName].balance - t.amount && a.reserve == l[t.fromAccountName].reserve
  {
    var from := l[t.fromAccountName];
    WithBalance(from, from.balance - t.amount).value
  }

  function Credited(l: Ledger, t: Transfer): (a: UserAccount)
    requires WellFormed(l) && ValidTransfer(t)
    requires t.toAccountName in l
    ensures ValidAccount(a) && a.name == t.toAccountName
    ensures a.balance == l[t.toAccountName].balance + t.amount && a.reserve == l[t.toAccountName].reserve
  {
    var to := l[t.toAccountName];
    WithBalance(to, to.balance + t.amount).value
  }

  /** The ledger once both writes of a covered transfer have taken effect. */
  function Moved(l: Ledger, t: Transfer): (r: Ledger)
    requires WellFormed(l) && ValidTransfer(t)
    requires t.fromAccountName in l && t.toAccountName in l && l[t.fromAccountName].balance >= t.amount
    ensures WellFormed(r) && r.Keys == l.Keys
    ensures r[t.fromAccountName] == l[t.fromAccountName].(balance := l[t.fromAccountName].balance - t.amount)
    ensures r[t.toAccountName] == l[t.toAccountName].(balance := l[t.toAccountName].balance + t.amount)
    ensures forall n :: n in l && n != t.fromAccountName && n != t.toAccountName ==> r[n] == l[n]
  {
    var debited := Debited(l, t);
    var l1 := Update(l, debited);
    UpdatePreservesWellFormed(l, debited);
    var credited := Credited(l, t);
    UpdatePreservesWellFormed(l1, credited);
    Update(l1, credited)
  }

  /** `updateUserAccount(Transfer)` as the code is written: each `update` runs on its own
      auto-committing connection, so a write that succeeded stays even when a later
      interaction fails; the outer connection's commit and rollback guard nothing. */
  function ApplyTransferAsWritten(l: Ledger, t: Transfer, f: Option<Fault>): (r: Applied)
    requires WellFormed(l) && ValidTransfer(t)
    ensures WellFormed(r.ledger) && r.ledger.Keys == l.Keys
    ensures ValidResult(r.result)
  {
    if FailsAt(f, OpenConnection) then Applied(l, FailedWith(TransferFailed, f.value.cause))
    else match Lookup(l, t.fromAccountName, f, FindFrom)
    case Failure(e) => Applied(l, FailedWith(TransferFailed, e))
    case Success(from) =>
      match Lookup(l, t.toAccountName, f, FindTo)
      case Failure(e) => Applied(l, FailedWith(TransferFailed, e))
      case Success(to) =>
        if from.balance >= t.amount then
          if FailsAt(f, UpdateFrom) then Applied(l, FailedWith(TransferFailed, f.value.cause))
          else
            var l1 := Update(l, Debited(l, t));
            if FailsAt(f, UpdateTo) then Applied(l1, FailedWith(TransferFailed, f.value.cause))
            else
              var l2 := Update(l1, Credited(l, t));
              if FailsAt(f, EndTransfer) then Applied(l2, FailedWith(TransferFailed, f.value.cause))
              else Applied(l2, Concluded(TransactionStatus.COMPLETED, TransferDone))
        else if FailsAt(f, EndTransfer) then Applied(l, FailedWith(TransferFailed, f.value.cause))
        else Applied(l, Concluded(TransactionStatus.FAILED, Insufficient))
  }

  /** `updateUserAccount(Transfer)` as its connection handling intends: both writes take
      effect together at the commit, or neither does. */
  function ApplyTransfer(l: Ledger, t: Transfer, f: Option<Fault>): (r: Applied)
    requires WellFormed(l) && ValidTransfer(t)
    ensures WellFormed(r.ledger) && ValidResult(r.result)
    // succeeds iff nothing fails, both accounts exist and the source covers the amount
    ensures r.result.value == TransactionStatus.COMPLETED <==>
      ClearThrough(f, EndTransfer) && t.fromAccountName in l && t.toAccountName in l
      && l[t.fromAccountName].balance >= t.amount
    ensures r.result.value != TransactionStatus.PROCESSING
    // on success: debit, credit, reserves and every other account untouched
    ensures r.result.value == TransactionStatus.COMPLETED ==>
      && r.result.message == TransferDone
      && r.ledger.Keys == l.Keys
      && r.ledger[t.fromAccountName] == l[t.fromAccountName].(balance := l[t.fromAccountName].balance - t.amount)
      && r.ledger[t.toAccountName] == l[t.toAccountName].(balance := l[t.toAccountName].balance + t.amount)
      && (forall n :: n in l && n != t.fromAccountName && n != t.toAccountName ==> r.ledger[n] == l[n])
    // any failure, whatever its cause, updates nothing
    ensures r.result.value == TransactionStatus.FAILED ==> r.ledger == l
    ensures r.result.value == TransactionStatus.FAILED ==>
      r.result.message == Insufficient || HasPrefix(r.result.message, TransferFailed)
    // an unknown account surfaces as the store's "User not found"
    ensures ClearThrough(f, EndTransfer) && (t.fromAccountName !in l || t.toAccountName !in l) ==>
      r.result == Result(TransactionStatus.FAILED, TransferFailed + UserNotFound)
    ensures FailsAt(f, OpenConnection) ==> r.result == Result(TransactionStatus.FAILED, TransferFailed + f.value.cause)
    // a planned failure the transfer runs into is reported with its own message
    ensures f.Some? && TransferReaches(l, t, f.value.at) ==>
      r.result == Result(TransactionStatus.FAILED, TransferFailed + f.value.cause)
  {
    if FailsAt(f, OpenConnection) then Applied(l, FailedWith(TransferFailed, f.value.cause))
    else match Lookup(l, t.fromAccountName, f, FindFrom)
    case Failure(e) => Applied(l, FailedWith(TransferFailed, e))
    case Success(from) =>
      match Lookup(l, t.toAccountName, f, FindTo)
      case Failure(e) => Applied(l, FailedWith(TransferFailed, e))
      case Success(to) =>
        if from.balance >= t.amount then
          if FailsAt(f, UpdateFrom) || FailsAt(f, UpdateTo) || FailsAt(f, EndTransfer) then
            Applied(l, FailedWith(TransferFailed, f.value.cause))
          else
            Applied(Moved(l, t), Concluded(TransactionStatus.COMPLETED, TransferDone))
        else if FailsAt(f, EndTransfer) then Applied(l, FailedWith(TransferFailed, f.value.cause))
        else Applied(l, Concluded(TransactionStatus.FAILED, Insufficient))
  }

  /** A planned failure at an interaction the transfer never performs changes nothing. */
  lemma UnreachedTransferFault(l: Ledger, t: Transfer, f: Option<Fault>)
    requires WellFormed(l) && ValidTransfer(t)
    requires f.Some? && !TransferReaches(l, t, f.value.at)
    ensures ApplyTransfer(l, t, f) == ApplyTransfer(l, t, None)
  {
  }

  /** A transfer is refused for insufficient funds exactly when both accounts were read,
      the source holds less than the amount and the closing rollback succeeds; the
      planned writes, and any failure planned for them, are then never reached. */
  lemma TransferRefusal(l: Ledger, t: Transfer, f: Option<Fault>)
    requires WellFormed(l) && ValidTransfer(t)
    ensures ApplyTransfer(l, t, f).result.message == Insufficient <==>
      ClearThrough(f, FindTo) && !FailsAt(f, EndTransfer) && t.fromAccountName in l && t.toAccountName in l
      && l[t.fromAccountName].balance < t.amount
  {
    var r := ApplyTransfer(l, t, f);
    if r.result.value == TransactionStatus.COMPLETED {
      assert r.result.message[0] != Insufficient[0];
    }
  }

  /** A transfer moves money between two accounts and creates or destroys none: the two
      balances keep their sum and the ledger keeps its total. */
  lemma TransferConserves(l: Ledger, t: Transfer, f: Option<Fault>)
    requires WellFormed(l) && ValidTransfer(t)
    ensures var r := ApplyTransfer(l, t, f).ledger;
            && Total(r) == Total(l)
            && (t.fromAccountName in l && t.toAccountName in l ==>
                r[t.fromAccountName].balance + r[t.toAccountName].balance
                == l[t.fromAccountName].balance + l[t.toAccountName].balance)
  {
    var r := ApplyTransfer(l, t, f);
    if r.result.value == TransactionStatus.COMPLETED {
      var debited := Debited(l, t);
      var l1 := Update(l, debited);
      TotalReplace(l, t.fromAccountName, debited);
      TotalReplace(l1, t.toAccountName, Credited(l, t));
    }
  }

  /** As written, a failure of the second `update` leaves the source debited and the
      destination not credited: the amount vanishes from the ledger while the transfer
      reports FAILED. */
  lemma TransferAsWrittenLosesFunds(l: Ledger, t: Transfer, cause: string)
    requires WellFormed(l) && ValidTransfer(t)
    requires t.fromAccountName in l && t.toAccountName in l && l[t.fromAccountName].balance >= t.amount
    ensures var r := ApplyTransferAsWritten(l, t, Some(Fault(UpdateTo, cause)));
            && r.result == Result(TransactionStatus.FAILED, TransferFailed + cause)
            && r.ledger[t.fromAccountName].balance == l[t.fromAccountName].balance - t.amount
            && r.ledger[t.toAccountName] == l[t.toAccountName]
            && Total(r.ledger) == Total(l) - t.amount
  {
    TotalReplace(l, t.fromAccountName, Debited(l, t));
  }

  // ---------------------------------------------------------------- withdrawal reservation

  /** The account a reservation of `w` would write: `amount` moved from balance to reserve. */
  function Reserved(l: Ledger, w: WithdrawalRequest): (a: UserAccount)
    requires WellFormed(l) && ValidRequest(w)
    requires w.accountName in l && l[w.accountName].balance >= w.amount
    ensures ValidAccount(a) && a.name == w.accountName && Funds(a) == Funds(l[w.accountName])
    ensures a.balance == l[w.accountName].balance - w.amount && a.reserve == l[w.accountName].reserve + w.amount
  {
    var acct := l[w.accountName];
    var debited := WithBalance(acct, acct.balance - w.amount).value;
    WithReserve(debited, debited.reserve + w.amount).value
  }

  /** `updateUserAccount(WithdrawalRequest)` as written: the `update` commits on its own, so a
      failing commit of the outer connection reports FAILED over a reservation that stays. */
  function ApplyReservationAsWritten(l: Ledger, w: WithdrawalRequest, f: Option<Fault>): (r: Applied)
    requires WellFormed(l) && ValidRequest(w)
    ensures WellFormed(r.ledger) && r.ledger.Keys == l.Keys
    ensures ValidResult(r.result)
  {
    if FailsAt(f, OpenConnection) then Applied(l, FailedWith(WithdrawalFailed, f.value.cause))
    else match Lookup(l, w.accountName, f, FindAccount)
    case Failure(e) => Applied(l, FailedWith(WithdrawalFailed, e))
    case Success(acct) =>
      if acct.balance >= w.amount then
        if FailsAt(f, UpdateAccount) then Applied(l, FailedWith(WithdrawalFailed, f.value.cause))
        else
          var l1 := Update(l, Reserved(l, w));
          if FailsAt(f, EndReservation) then Applied(l1, FailedWith(WithdrawalFailed, f.value.cause))
          else Applied(l1, Concluded(TransactionStatus.PROCESSING, ReservationDone))
      else if FailsAt(f, EndReservation) then Applied(l, FailedWith(WithdrawalFailed, f.value.cause))
      else Applied(l, Concluded(TransactionStatus.FAILED, Insufficient))
  }

  /** `updateUserAccount(WithdrawalRequest)` with the reservation taking effect only at the commit. */
  function ApplyReservation(l: Ledger, w: WithdrawalRequest, f: Option<Fault>): (r: Applied)
    requires WellFormed(l) && ValidRequest(w)
    ensures WellFormed(r.ledger) && ValidResult(r.result)
    ensures r.result.value == TransactionStatus.PROCESSING <==>
      ClearThrough(f, EndReservation) && w.accountName in l && l[w.accountName].balance >= w.amount
    ensures r.result.value != TransactionStatus.COMPLETED
    // on success: balance down, reserve up by the amount, their sum and every other account unchanged
    ensures r.result.value == TransactionStatus.PROCESSING ==>
      && r.result.message == ReservationDone
      && r.ledger.Keys == l.Keys
      && r.ledger[w.accountName].balance == l[w.accountName].balance - w.amount
      && r.ledger[w.accountName].reserve == l[w.accountName].reserve + w.amount
      && Funds(r.ledger[w.accountName]) == Funds(l[w.accountName])
      && (forall n :: n in l && n != w.accountName ==> r.ledger[n] == l[n])
    ensures r.result.value == TransactionStatus.FAILED ==> r.ledger == l
    ensures r.result.value == TransactionStatus.FAILED ==>
      r.result.message == Insufficient || HasPrefix(r.result.message, WithdrawalFailed)
    ensures ClearThrough(f, EndReservation) && w.accountName !in l ==>
      r.result == Result(TransactionStatus.FAILED, WithdrawalFailed + UserNotFound)
    // a planned failure the reservation runs into is reported with its own message
    ensures f.Some? && ReservationReaches(l, w, f.value.at) ==>
      r.result == Result(TransactionStatus.FAILED, WithdrawalFailed + f.value.cause)
  {
    if FailsAt(f, OpenConnection) then Applied(l, FailedWith(WithdrawalFailed, f.value.cause))
    else match Lookup(l, w.accountName, f, FindAccount)
    case Failure(e) => Applied(l, FailedWith(WithdrawalFailed, e))
    case Success(acct) =>
      if acct.balance >= w.amount then
        if FailsAt(f, UpdateAccount) || FailsAt(f, EndReservation) then
          Applied(l, FailedWith(WithdrawalFailed, f.value.cause))
        else Applied(Update(l, Reserved(l, w)), Concluded(TransactionStatus.PROCESSING, ReservationDone))
      else if FailsAt(f, EndReservation) then Applied(l, FailedWith(WithdrawalFailed, f.value.cause))
      else Applied(l, Concluded(TransactionStatus.FAILED, Insufficient))
  }

  /** A planned failure at an interaction the reservation never performs changes nothing. */
  lemma UnreachedReservationFault(l: Ledger, w: WithdrawalRequest, f: Option<Fault>)
    requires WellFormed(l) && ValidRequest(w)
    requires f.Some? && !ReservationReaches(l, w, f.value.at)
    ensures ApplyReservation(l, w, f) == ApplyReservation(l, w, None)
  {
  }

  /** A withdrawal is refused for insufficient funds exactly when the account was read, its
      balance is below the amount and the closing rollback succeeds. */
  lemma ReservationRefusal(l: Ledger, w: WithdrawalRequest, f: Option<Fault>)
    requires WellFormed(l) && ValidRequest(w)
    ensures ApplyReservation(l, w, f).result.message == Insufficient <==>
      ClearThrough(f, FindAccount) && !FailsAt(f, EndReservation) && w.accountName in l && l[w.accountName].balance < w.amount
  {
    var r := ApplyReservation(l, w, f);
    if r.result.value == TransactionStatus.PROCESSING {
      assert r.result.message[0] != Insufficient[0];
    }
  }

  lemma ReservationConserves(l: Ledger, w: WithdrawalRequest, f: Option<Fault>)
    requires WellFormed(l) && ValidRequest(w)
    ensures Total(ApplyReservation(l, w, f).ledger) == Total(l)
  {
    var r := ApplyReservation(l, w, f);
    if r.result.value == TransactionStatus.PROCESSING {
      UpdateKeepsTotal(l, Reserved(l, w));
    }
  }

  /** As written, a failing commit after the reservation's `update` reports FAILED although the
      funds stay reserved; since only PROCESSING requests are forwarded, nothing will ever
      settle or release that reserve. */
  lemma ReservationAsWrittenStrandsReserve(l: Ledger, w: WithdrawalRequest, cause: string)
    requires WellFormed(l) && ValidRequest(w)
    requires w.accountName in l && l[w.accountName].balance >= w.amount
    ensures var r := ApplyReservationAsWritten(l, w, Some(Fault(EndReservation, cause)));
            && r.result == Result(TransactionStatus.FAILED, WithdrawalFailed + cause)
            && r.ledger[w.accountName].reserve == l[w.accountName].reserve + w.amount
            && r.ledger[w.accountName].balance == l[w.accountName].balance - w.amount
  {
  }

  // ---------------------------------------------------------------- reports

  /** The report log after `report(...)` and the report it returns for sending. */
  datatype Reported = Reported(log: Log, report: Report)

  /** `report`: build the report and insert it; if the insert fails, nothing is stored and
      a FAILED "Transaction failed: <cause>" report is returned instead. */
  function MakeReport(log: Log, tx: Transaction, result: Result<TransactionStatus>, fault: Option<string>): (r: Reported)
    requires ValidTransaction(tx) && ValidResult(result)
    ensures ValidReport(r.report)
    ensures r.report.transactionId == tx.TxId() && r.report.amount == tx.Amount()
    ensures fault.None? ==> r.log == log + [r.report]
    ensures fault.None? ==> r.report.status == result.value && r.report.message == result.message
    ensures fault.Some? ==> r.log == log
    ensures fault.Some? ==> r.report == Report(tx.TxId(), tx.Amount(), TransactionStatus.FAILED, TransferFailed + fault.value)
  {
    var report := Report(tx.TxId(), tx.Amount(), result.value, result.message);
    match Insert(log, report, fault)
    case Success(stored) => Reported(stored, report)
    case Failure(e) =>
      Reported(log, Report(tx.TxId(), tx.Amount(), TransactionStatus.FAILED, FailedWith(TransferFailed, e).message))
  }

  // ---------------------------------------------------------------- one iteration

  datatype TxState = TxState(ledger: Ledger, log: Log)

  /** Store failures planned for one iteration: the account update, the insert of the
      message's report, and the insert of a relayed withdrawal report. */
  datatype TxFaults = TxFaults(account: Option<Fault>, reportInsert: Option<string>, relayInsert: Option<string>)

  /** The state after a step, the reports put on the report queue, and the requests put on
      the withdrawal queue. */
  datatype TxStep = TxStep(state: TxState, sent: seq<Report>, forwarded: seq<WithdrawalRequest>)

  predicate ValidState(s: TxState) {
    WellFormed(s.ledger)
  }

  /** `process(Transfer)`. */
  function ProcessTransfer(s: TxState, t: Transfer, faults: TxFaults): (r: TxStep)
    requires ValidState(s) && ValidTransfer(t)
    ensures ValidState(r.state)
    ensures r.forwarded == []
    ensures |r.sent| == 1 && ValidReport(r.sent[0])
    ensures r.sent[0].transactionId == t.transactionId && r.sent[0].amount == t.amount
    ensures r.state.ledger == ApplyTransfer(s.ledger, t, faults.account).ledger
    ensures Total(r.state.ledger) == Total(s.ledger)
    ensures faults.reportInsert.None? ==> r.state.log == s.log + r.sent
    ensures faults.reportInsert.None? ==> r.sent[0].status == ApplyTransfer(s.ledger, t, faults.account).result.value
    ensures faults.reportInsert.None? ==> r.sent[0].message == ApplyTransfer(s.ledger, t, faults.account).result.message
    ensures faults.reportInsert.Some? ==> r.state.log == s.log && r.sent[0].status == TransactionStatus.FAILED
  {
    TransferConserves(s.ledger, t, faults.account);
    var applied := ApplyTransfer(s.ledger, t, faults.account);
    var rep := MakeReport(s.log, TransferTx(t), applied.result, faults.reportInsert);
    TxStep(TxState(applied.ledger, rep.log), [rep.report], [])
  }

  /** `process(WithdrawalRequest)`: the request is forwarded exactly when the reservation succeeded. */
  function ProcessRequest(s: TxState, w: WithdrawalRequest, faults: TxFaults): (r: TxStep)
    requires ValidState(s) && ValidRequest(w)
    ensures ValidState(r.state)
    ensures r.forwarded == [] || r.forwarded == [w]
    ensures r.forwarded == [w] <==>
      ClearThrough(faults.account, EndReservation) && w.accountName in s.ledger && s.ledger[w.accountName].balance >= w.amount
    ensures r.forwarded == [] ==> r.state.ledger == s.ledger
    ensures r.state.ledger == ApplyReservation(s.ledger, w, faults.account).ledger
    ensures r.forwarded == [w] <==> ApplyReservation(s.ledger, w, faults.account).result.value == TransactionStatus.PROCESSING
    ensures Total(r.state.ledger) == Total(s.ledger)
    ensures r.forwarded == [w] ==> w.accountName in s.ledger && w.accountName in r.state.ledger
    ensures r.forwarded == [w] ==> r.state.ledger[w.accountName].reserve == s.ledger[w.accountName].reserve + w.amount
    ensures |r.sent| == 1 && ValidReport(r.sent[0])
    ensures r.sent[0].transactionId == w.transactionId && r.sent[0].amount == w.amount
    ensures faults.reportInsert.None? ==> r.state.log == s.log + r.sent
    ensures faults.reportInsert.None? ==> (r.forwarded == [w] <==> r.sent[0].status == TransactionStatus.PROCESSING)
    ensures faults.reportInsert.None? ==> r.sent[0].status == ApplyReservation(s.ledger, w, faults.account).result.value
    ensures faults.reportInsert.None? ==> r.sent[0].message == ApplyReservation(s.ledger, w, faults.account).result.message
    ensures faults.reportInsert.Some? ==> r.state.log == s.log && r.sent[0].status == TransactionStatus.FAILED
  {
    ReservationConserves(s.ledger, w, faults.account);
    var applied := ApplyReservation(s.ledger, w, faults.account);
    var forwarded := if applied.result.value == TransactionStatus.PROCESSING then [w] else [];
    var rep := MakeReport(s.log, RequestTx(w), applied.result, faults.reportInsert);
    TxStep(TxState(applied.ledger, rep.log), [rep.report], forwarded)
  }

  /** `process(Report)`: store a report relayed from the withdrawal engine; a failed insert is only logged. */
  function ProcessRelayed(log: Log, r: Report, fault: Option<string>): (res: Log)
    ensures fault.None? ==> res == log + [r]
    ensures fault.Some? ==> res == log
  {
    match Insert(log, r, fault)
    case Success(stored) => stored
    case Failure(_) => log
  }

  /** The log after the relayed report polled in an iteration, if any, has been stored. */
  function Relay(log: Log, relayed: Option<Report>, fault: Option<string>): (res: Log)
    ensures relayed.Some? && fault.None? ==> res == log + [relayed.value]
    ensures relayed.None? || fault.Some? ==> res == log
  {
    if relayed.Some? then ProcessRelayed(log, relayed.value, fault) else log
  }

  /** A log that a dispatch may have extended by its report, then a relayed report, keeps its prefix. */
  lemma RelayedAfter(log: Log, dispatched: Log, sent: seq<Report>, relayed: Option<Report>, fault: Option<string>)
    requires |sent| <= 1 && (dispatched == log || dispatched == log + sent)
    ensures |log| <= |Relay(dispatched, relayed, fault)| <= |log| + 2
    ensures Relay(dispatched, relayed, fault)[..|log|] == log
    ensures dispatched == log + sent && sent != [] ==> Relay(dispatched, relayed, fault)[|log|] == sent[0]
    ensures relayed.Some? && fault.None? ==>
      Relay(dispatched, relayed, fault)[|Relay(dispatched, relayed, fault)| - 1] == relayed.value
  {
    var res := Relay(dispatched, relayed, fault);
    assert res[..|dispatched|] == dispatched;
    assert res[..|log|] == dispatched[..|log|];
  }

  /** Messages the engine acts on; a `Withdrawal` record on the queue is unsupported and only logged. */
  predicate Handled(message: Option<Transaction>) {
    message.Some? && !message.value.WithdrawalTx?
  }

  /** What acting on the polled message leaves behind, in terms of the account update it
      performs: a transfer's ledger is the one the transfer leaves and a request's the one the
      reservation leaves; a request is forwarded exactly when its reservation succeeded; and
      unless the report's insert fails, the report sent carries the update's status and message. */
  predicate Acted(s: TxState, message: Option<Transaction>, faults: TxFaults,
                  ledger: Ledger, sent: seq<Report>, forwarded: seq<WithdrawalRequest>)
    requires ValidState(s)
    requires message.Some? ==> ValidTransaction(message.value)
  {
    && (message.Some? && message.value.TransferTx? ==>
          var applied := ApplyTransfer(s.ledger, message.value.transfer, faults.account);
          && ledger == applied.ledger
          && (faults.reportInsert.None? ==>
                |sent| > 0 && sent[0].status == applied.result.value && sent[0].message == applied.result.message))
    && (message.Some? && message.value.RequestTx? ==>
          var applied := ApplyReservation(s.ledger, message.value.request, faults.account);
          && ledger == applied.ledger
          && (forwarded == [message.value.request] <==> applied.result.value == TransactionStatus.PROCESSING)
          && (faults.reportInsert.None? ==>
                |sent| > 0 && sent[0].status == applied.result.value && sent[0].message == applied.result.message))
  }

  /** The first half of an iteration: act on the message polled from the transaction queue, if any. */
  function Dispatch(s: TxState, message: Option<Transaction>, faults: TxFaults): (r: TxStep)
    requires ValidState(s)
    requires message.Some? ==> ValidTransaction(message.value)
    ensures ValidState(r.state)
    ensures Total(r.state.ledger) == Total(s.ledger)
    ensures |r.sent| == (if Handled(message) then 1 else 0)
    ensures forall i :: 0 <= i < |r.sent| ==> ValidReport(r.sent[i])
    ensures Handled(message) ==>
      r.sent[0].transactionId == message.value.TxId() && r.sent[0].amount == message.value.Amount()
    ensures |r.forwarded| <= 1
    ensures r.forwarded != [] ==> message == Some(RequestTx(r.forwarded[0]))
    ensures !Handled(message) ==> r.state == s
    ensures r.state.log == s.log || r.state.log == s.log + r.sent
    ensures Acted(s, message, faults, r.state.ledger, r.sent, r.forwarded)
    // the report sent is the one stored, unless its insert fails
    ensures Handled(message) && faults.reportInsert.None? ==> r.state.log == s.log + r.sent
    ensures Handled(message) && faults.reportInsert.Some? ==>
      r.state.log == s.log && r.sent[0].status == TransactionStatus.FAILED
  {
    match message
    case None => TxStep(s, [], [])
    case Some(TransferTx(t)) => ProcessTransfer(s, t, faults)
    case Some(RequestTx(w)) => ProcessRequest(s, w, faults)
    case Some(WithdrawalTx(_)) => TxStep(s, [], [])
  }

  /** One pass of the `run` loop: poll the transaction queue, then the withdrawal report queue. */
  function Iteration(s: TxState, message: Option<Transaction>, relayed: Option<Report>, faults: TxFaults): (r: TxStep)
    requires ValidState(s)
    requires message.Some? ==> ValidTransaction(message.value)
    ensures ValidState(r.state)
    ensures Total(r.state.ledger) == Total(s.ledger)
    // exactly one report per handled message, about that message
    ensures |r.sent| == (if Handled(message) then 1 else 0)
    ensures forall i :: 0 <= i < |r.sent| ==> ValidReport(r.sent[i])
    ensures Handled(message) ==>
      r.sent[0].transactionId == message.value.TxId() && r.sent[0].amount == message.value.Amount()
    // only withdrawal requests are forwarded, and only the one just processed
    ensures |r.forwarded| <= 1
    ensures r.forwarded != [] ==> message == Some(RequestTx(r.forwarded[0]))
    ensures !Handled(message) ==> r.state.ledger == s.ledger
    ensures Acted(s, message, faults, r.state.ledger, r.sent, r.forwarded)
    // the report log only grows, by the message's report and the relayed one
    ensures |s.log| <= |r.state.log| <= |s.log| + 2 && r.state.log[..|s.log|] == s.log
    ensures relayed.Some? && faults.relayInsert.None? ==> |r.state.log| > 0 && r.state.log[|r.state.log| - 1] == relayed.value
    // the message's report is the one sent and, unless its insert fails, the first one stored
    ensures r.sent == Dispatch(s, message, faults).sent && r.forwarded == Dispatch(s, message, faults).forwarded
    ensures Handled(message) && faults.reportInsert.None? ==> |r.state.log| > |s.log| && r.state.log[|s.log|] == r.sent[0]
  {
    var first := Dispatch(s, message, faults);
    var log := Relay(first.state.log, relayed, faults.relayInsert);
    RelayedAfter(s.log, first.state.log, first.sent, relayed, faults.relayInsert);
    TxStep(TxState(first.state.ledger, log), first.sent, first.forwarded)
  }

  // ---------------------------------------------------------------- many iterations

  /** What one iteration is given: the polled message, the polled relayed report, and the planned failures. */
  datatype TxInput = TxInput(message: Option<Transaction>, relayed: Option<Report>, faults: TxFaults)

  predicate ValidInputs(inputs: seq<TxInput>) {
    forall i :: 0 <= i < |inputs| && inputs[i].message.Some? ==> ValidTransaction(inputs[i].message.value)
  }

  /** The number of messages among `inputs` the engine acts on. */
  function HandledCount(inputs: seq<TxInput>): nat {
    if |inputs| == 0 then 0 else (if Handled(inputs[0].message) then 1 else 0) + HandledCount(inputs[1..])
  }

  /** The engine's iterations over a sequence of inputs, collecting everything it sends. */
  function Run(s: TxState, inputs: seq<TxInput>): (r: TxStep)
    requires ValidState(s) && ValidInputs(inputs)
    ensures ValidState(r.state)
    decreases |inputs|
  {
    if |inputs| == 0 then TxStep(s, [], [])
    else
      var step := Iteration(s, inputs[0].message, inputs[0].relayed, inputs[0].faults);
      var rest := Run(step.state, inputs[1..]);
      TxStep(rest.state, step.sent + rest.sent, step.forwarded + rest.forwarded)
  }

  lemma ValidInputsTail(inputs: seq<TxInput>)
    requires |inputs| > 0 && ValidInputs(inputs)
    ensures ValidInputs(inputs[1..])
  {
    forall i | 0 <= i < |inputs[1..]| && inputs[1..][i].message.Some?
      ensures ValidTransaction(inputs[1..][i].message.value)
    {
      assert inputs[1..][i] == inputs[i + 1];
    }
  }

  lemma ValidReportsJoin(a: seq<Report>, b: seq<Report>)
    requires forall i :: 0 <= i < |a| ==> ValidReport(a[i])
    requires forall i :: 0 <= i < |b| ==> ValidReport(b[i])
    ensures forall i :: 0 <= i < |a + b| ==> ValidReport((a + b)[i])
  {
    assert forall i :: 0 <= i < |a + b| ==> (a + b)[i] == if i < |a| then a[i] else b[i - |a|];
  }

  /** Account-balance safety over any run with atomic account writes, whatever fails along
      the way: every account stays non-negative, the money in the ledger is conserved, every
      handled message yields exactly one report, and no more requests are forwarded than
      messages handled. */
  lemma {:induction false} RunSafety(s: TxState, inputs: seq<TxInput>)
    requires ValidState(s) && ValidInputs(inputs)
    ensures var r := Run(s, inputs);
            && (forall n :: n in r.state.ledger ==> ValidAccount(r.state.ledger[n]))
            && Total(r.state.ledger) == Total(s.ledger)
            && |r.sent| == HandledCount(inputs)
            && |r.forwarded| <= HandledCount(inputs)
            && (forall i :: 0 <= i < |r.sent| ==> ValidReport(r.sent[i]))
    decreases |inputs|
  {
    if |inputs| > 0 {
      var step := Iteration(s, inputs[0].message, inputs[0].relayed, inputs[0].faults);
      ValidInputsTail(inputs);
      RunSafety(step.state, inputs[1..]);
      var rest := Run(step.state, inputs[1..]);
      ValidReportsJoin(step.sent, rest.sent);
    }
  }

  // ---------------------------------------------------------------- scenarios

  /** The two-account ledger of TransactionWorkerTest: User1 and User2, nothing reserved. */
  function Pair(balance1: int, balance2: int): Ledger {
    map["User1" := UserAccount("User1", balance1, 0), "User2" := UserAccount("User2", balance2, 0)]
  }

  /** User1 with 1000 sends 100 to User2 with 1000: 900 and 1100 afterwards. */
  lemma ScenarioTransfer(t: Transfer)
    requires t == Transfer(TransactionId(Uuid(1), "User1"), "User1", "User2", 100)
    ensures ValidTransfer(t) && WellFormed(Pair(1000, 1000))
    ensures var r := ApplyTransfer(Pair(1000, 1000), t, None);
            && r.ledger == Pair(900, 1100)
            && r.result == Result(TransactionStatus.COMPLETED, TransferDone)
  {
    LeadingNotBlank("User1");
    LeadingNotBlank("User2");
    var r := ApplyTransfer(Pair(1000, 1000), t, None);
    assert r.ledger.Keys == Pair(900, 1100).Keys;
  }

  /** User1 with 50 cannot send 100: nothing changes and the report says "Insufficient funds". */
  lemma ScenarioInsufficient(t: Transfer)
    requires t == Transfer(TransactionId(Uuid(1), "User1"), "User1", "User2", 100)
    ensures ValidTransfer(t) && WellFormed(Pair(50, 1000))
    ensures ApplyTransfer(Pair(50, 1000), t, None) == Applied(Pair(50, 1000), Result(TransactionStatus.FAILED, Insufficient))
  {
    LeadingNotBlank("User1");
    LeadingNotBlank("User2");
  }

  /** User1 with 1000 asks to withdraw 300: 700 spendable, 300 reserved, status PROCESSING. */
  lemma ScenarioReservation(w: WithdrawalRequest)
    requires w == WithdrawalRequest(TransactionId(Uuid(2), "User1"), "User1", "addr", 300)
    ensures ValidRequest(w) && WellFormed(Pair(1000, 1000))
    ensures var r := ApplyReservation(Pair(1000, 1000), w, None);
            && r.ledger == Pair(1000, 1000)["User1" := UserAccount("User1", 700, 300)]
            && r.result == Result(TransactionStatus.PROCESSING, ReservationDone)
  {
    LeadingNotBlank("User1");
    LeadingNotBlank("addr");
    var r := ApplyReservation(Pair(1000, 1000), w, None);
    assert r.ledger.Keys == Pair(1000, 1000).Keys;
  }

  /** Every lookup fails with "Database error": the transfer is reported FAILED with that
      cause, the report is stored, and no account changes. */
  lemma ScenarioStoreError(t: Transfer, s: TxState)
    requires t == Transfer(TransactionId(Uuid(1), "User1"), "User1", "User2", 100)
    requires s.ledger == Pair(1000, 1000)
    ensures ValidTransfer(t) && ValidState(s)
    ensures var r := ProcessTransfer(s, t, TxFaults(Some(Fault(FindFrom, "Database error")), None, None));
            && r.state == TxState(s.ledger, s.log + r.sent)
            && r.sent[0].status == TransactionStatus.FAILED
            && r.sent[0].message == "Transaction failed: Database error"
  {
    LeadingNotBlank("User1");
    LeadingNotBlank("User2");
    var f := Some(Fault(FindFrom, "Database error"));
    assert !FailsAt(f, OpenConnection);
    assert Lookup(s.ledger, t.fromAccountName, f, FindFrom) == Failure("Database error");
    var a := ApplyTransfer(s.ledger, t, f);
    assert a == Applied(s.ledger, FailedWith(TransferFailed, "Database error"));
    assert a.result.message == "Transaction failed: Database error";
    var r := ProcessTransfer(s, t, TxFaults(f, None, None));
    assert r.state.ledger == s.ledger;
    assert r.state.log == s.log + r.sent;
  }
}

=== FILE: withdrawal_store.dfy ===
/** The withdrawal store (WithdrawalRepository) as a map from withdrawal id to row.
    A row holds the columns the repository writes: transaction id (with user id),
    destination address, amount, status and status message. */
module WithdrawalStore {
  import opened Wrappers
  import opened Model

  datatype Row = Row(transactionId: TransactionId, address: string, amount: int,
                     status: WithdrawalState, message: Option<string>)

  type Table = map<WithdrawalId, Row>

  /** Part of what reading a row back into a `Withdrawal` record needs: a constructible
      transaction id and a positive amount. The record also needs a non-blank account name
      and address; the row keeps no account name of its own, and the address is not
      checked here. */
  predicate WellFormed(t: Table) {
    forall id :: id in t ==> ValidTransactionId(t[id].transactionId) && t[id].amount > 0
  }

  /** Stand-in for the database's unique-key error on a duplicate withdrawal id. */
  const DuplicateId := "duplicate withdrawal id"

  /** `save`: INSERT a row for a newly registered withdrawal. The INSERT names no status
      or message column; a fresh row is taken to be PROCESSING with no message. */
  function Save(t: Table, id: WithdrawalId, transactionId: TransactionId, address: Address, amount: int): (r: Outcome<Table, string>)
    ensures r.Success? <==> id !in t
    ensures r.Success? ==> r.value.Keys == t.Keys + {id}
    ensures r.Success? ==> r.value[id] == Row(transactionId, address.value, amount, WithdrawalState.PROCESSING, None)
    ensures r.Success? ==> forall k :: k in t ==> r.value[k] == t[k]
    ensures r.Failure? ==> r.error == DuplicateId
  {
    if id in t then Failure(DuplicateId)
    else Success(t[id := Row(transactionId, address.value, amount, WithdrawalState.PROCESSING, None)])
  }

  /** `update`: set status and message of the row with that id; other columns and rows keep their values,
      and an unknown id changes nothing. */
  function Update(t: Table, id: WithdrawalId, state: WithdrawalState, message: string): (r: Table)
    ensures r.Keys == t.Keys
    ensures forall k :: k in t && k != id ==> r[k] == t[k]
    ensures id in t ==> r[id] == t[id].(status := state, message := Some(message))
  {
    if id in t then t[id := t[id].(status := state, message := Some(message))] else t
  }

  /** The ids of the rows still awaiting a terminal state. */
  function ProcessingIds(t: Table): (r: set<WithdrawalId>)
    ensures forall id :: id in r <==> id in t && t[id].status == WithdrawalState.PROCESSING
  {
    set id | id in t && t[id].status == WithdrawalState.PROCESSING
  }

  /** `ids` lists each element of `s` exactly once, in some order. */
  predicate IsListingOf(ids: seq<WithdrawalId>, s: set<WithdrawalId>) {
    && (forall i, j :: 0 <= i < j < |ids| ==> ids[i] != ids[j])
    && (forall i :: 0 <= i < |ids| ==> ids[i] in s)
    && (forall x :: x in s ==> x in ids)
  }

  /** `findProcessing`: every PROCESSING row once each; the order of the SQL result is left open. */
  method FindProcessing(t: Table) returns (ids: seq<WithdrawalId>)
    ensures IsListingOf(ids, ProcessingIds(t))
  {
    var pending := ProcessingIds(t);
    ids := [];
    while pending != {}
      invariant pending <= ProcessingIds(t)
      invariant forall i, j :: 0 <= i < j < |ids| ==> ids[i] != ids[j]
      invariant forall i :: 0 <= i < |ids| ==> ids[i] in ProcessingIds(t) && ids[i] !in pending
      invariant forall x :: x in ProcessingIds(t) ==> x in pending || x in ids
      decreases pending
    {
      var id :| id in pending;
      ids := ids + [id];
      pending := pending - {id};
    }
  }

  lemma UpdatePreservesWellFormed(t: Table, id: WithdrawalId, state: WithdrawalState, message: string)
    requires WellFormed(t)
    ensures WellFormed(Update(t, id, state, message))
  {
  }

  lemma SavePreservesWellFormed(t: Table, id: WithdrawalId, transactionId: TransactionId, address: Address, amount: int)
    requires WellFormed(t) && ValidTransactionId(transactionId) && amount > 0
    ensures Save(t, id, transactionId, address, amount).Success? ==> WellFormed(Save(t, id, transactionId, address, amount).value)
  {
  }

  /** `save` is insert-only: saving a second time under an existing id fails and cannot
      move the row to another status. */
  lemma SaveNeverReplaces(t: Table, id: WithdrawalId, transactionId: TransactionId, address: Address, amount: int)
    requires id in t
    ensures Save(t, id, transactionId, address, amount) == Failure(DuplicateId)
  {
  }

  /** After `update`, the row is no longer listed as processing exactly when the new state is terminal;
      every other row keeps its place in or out of the processing set. */
  lemma UpdateProcessingIds(t: Table, id: WithdrawalId, state: WithdrawalState, message: string)
    requires id in t
    ensures ProcessingIds(Update(t, id, state, message)) ==
      if state == WithdrawalState.PROCESSING then ProcessingIds(t) + {id} else ProcessingIds(t) - {id}
  {
  }
}

=== FILE: withdrawal_worker.dfy ===
/** The withdrawal engine (WithdrawalWorker): registration of forwarded requests with the
    provider, and the reconciliation pass over the withdrawal store that runs whenever the
    withdrawal queue is idle. The provider's clock and random draws are parameters. */
module WithdrawalWorker {
  import opened Wrappers
  import opened Text
  import opened Model
  import S = WithdrawalStore
  import P = Provider

  const RequestSent := "Withdrawal request sent"
  const RequestFailed := "Withdrawal request failed"
  const InProgress := "Withdrawal in progress"
  const Completed := "Withdrawal completed"
  const Failed := "Withdrawal failed"

  /** The engine's own fixed messages are all acceptable to `Result` and `Report`. */
  lemma MessagesNotBlank()
    ensures !IsBlank(RequestSent) && !IsBlank(RequestFailed) && !IsBlank(InProgress)
    ensures !IsBlank(Completed) && !IsBlank(Failed)
  {
    LeadingNotBlank(RequestSent);
    LeadingNotBlank(RequestFailed);
    LeadingNotBlank(InProgress);
    LeadingNotBlank(Completed);
    LeadingNotBlank(Failed);
  }

  /** The transaction status a provider state is reported as. */
  function AsStatus(s: WithdrawalState): (r: TransactionStatus)
    ensures (r == TransactionStatus.PROCESSING) == (s == WithdrawalState.PROCESSING)
    ensures (r == TransactionStatus.COMPLETED) == (s == WithdrawalState.COMPLETED)
  {
    match s
    case PROCESSING => TransactionStatus.PROCESSING
    case COMPLETED => TransactionStatus.COMPLETED
    case FAILED => TransactionStatus.FAILED
  }

  // ---------------------------------------------------------------- registration

  /** The provider after a registration, and the report sent back to the transaction engine. */
  datatype Registered = Registered(provider: P.Requests, report: Report)

  /** `process(WithdrawalRequest)`: register the request under a withdrawal id equal to its
      transaction id; any exception becomes a FAILED report. The withdrawal store is not written. */
  function Register(p: P.Requests, w: WithdrawalRequest, now: int, d: P.Draw): (r: Registered)
    requires ValidRequest(w) && P.ValidDraw(d)
    ensures ValidReport(r.report)
    ensures r.report.transactionId == w.transactionId && r.report.amount == w.amount
    ensures r.report.status != TransactionStatus.COMPLETED
    // accepted unless the id is already registered with other parameters
    ensures var id := WithdrawalId(w.transactionId.id);
            r.report.status == TransactionStatus.PROCESSING <==>
              id !in p || (p[id].address == Address(w.toAddress) && p[id].amount == w.amount)
    ensures r.report.status == TransactionStatus.PROCESSING ==>
              WithdrawalId(w.transactionId.id) in r.provider && r.report.message == RequestSent
    ensures r.report.status == TransactionStatus.FAILED ==> r.provider == p && r.report.message == RequestFailed
    // acceptance adds at most the request's own entry, with its address and amount
    ensures var id := WithdrawalId(w.transactionId.id);
            r.report.status == TransactionStatus.PROCESSING ==>
              && r.provider.Keys == p.Keys + {id}
              && (forall k :: k in p && k != id ==> r.provider[k] == p[k])
              && (id in p ==> r.provider == p)
              && (id !in p ==> r.provider[id] == P.NewEntry(Address(w.toAddress), w.amount, now, d))
    ensures P.WellFormed(p) ==> P.WellFormed(r.provider)
  {
    MessagesNotBlank();
    var id := WithdrawalId(w.transactionId.id);
    match P.RequestWithdrawal(p, id, Address(w.toAddress), w.amount, now, d)
    case Success(q) => Registered(q, Report(w.transactionId, w.amount, TransactionStatus.PROCESSING, RequestSent))
    case Failure(_) => Registered(p, Report(w.transactionId, w.amount, TransactionStatus.FAILED, RequestFailed))
  }

  /** Re-delivering a request the provider accepted is harmless: the provider is unchanged
      and the engine again reports PROCESSING. */
  lemma RegisterTwice(p: P.Requests, w: WithdrawalRequest, now1: int, d1: P.Draw, now2: int, d2: P.Draw)
    requires ValidRequest(w) && P.ValidDraw(d1) && P.ValidDraw(d2)
    requires var id := WithdrawalId(w.transactionId.id);
             id !in p || (p[id].address == Address(w.toAddress) && p[id].amount == w.amount)
    ensures var once := Register(p, w, now1, d1).provider;
            Register(once, w, now2, d2) == Register(p, w, now1, d1).(provider := once)
  {
    P.RequestIdempotent(p, WithdrawalId(w.transactionId.id), Address(w.toAddress), w.amount, now1, d1, now2, d2);
  }

  // ---------------------------------------------------------------- checking one withdrawal

  /** A store failure planned for one `checkWithdrawal`: opening its connection, or the
      `update` of the row. A failing commit is not listed: it comes after the update, which
      has committed on its own connection, and after the result is set, so it changes nothing. */
  datatype CheckFault = NoFault | ConnectionFault | UpdateFault

  /** A result carrying one of the check's fixed messages. */
  function Said(status: TransactionStatus, message: string): (r: Result<TransactionStatus>)
    requires message == InProgress || message == Completed || message == Failed
    ensures r.value == status && r.message == message
    ensures ValidResult(r)
  {
    LeadingNotBlank(message);
    Result(status, message)
  }

  /** The outcome of `checkWithdrawal`: the store and the result, or the provider's exception,
      which nothing in the engine catches. */
  datatype Checked = Checked(table: S.Table, result: Result<TransactionStatus>) | Crashed(error: P.ProviderError)

  /** `checkWithdrawal`: ask the provider for the state; record a terminal state in the store.
      Until a terminal state is recorded the result is PROCESSING "Withdrawal in progress". */
  function CheckWithdrawal(t: S.Table, p: P.Requests, id: WithdrawalId, now: int, fault: CheckFault): (r: Checked)
    // the provider is asked only when the connection opened; an unknown id then escapes
    ensures r.Crashed? <==> fault != ConnectionFault && id !in p
    ensures r.Crashed? ==> r.error == P.NotFound(id)
    ensures r.Checked? ==> ValidResult(r.result) && r.table.Keys == t.Keys
    // only the checked row can change, and only from PROCESSING to terminal
    ensures r.Checked? ==> forall k :: k in t && k != id ==> r.table[k] == t[k]
    ensures r.Checked? && id in t && t[id].status == WithdrawalState.PROCESSING ==> Moves(t[id], r.table[id])
    ensures r.Checked? && S.WellFormed(t) ==> S.WellFormed(r.table)
    // settled exactly when nothing failed and the provider has reached a terminal state
    ensures r.Checked? ==>
      (r.result.value != TransactionStatus.PROCESSING <==>
        fault == NoFault && id in p && P.IsTerminal(P.StateAt(p[id], now)))
    ensures r.Checked? && r.result.value == TransactionStatus.PROCESSING ==>
      r.table == t && r.result.message == InProgress
    // a settled result is the provider's state, and that state is written to the row
    ensures r.Checked? && r.result.value != TransactionStatus.PROCESSING ==>
      && id in p
      && r.result.value == AsStatus(P.StateAt(p[id], now))
      && r.table == S.Update(t, id, P.StateAt(p[id], now), r.result.message)
    // each terminal state carries its own fixed message
    ensures r.Checked? && r.result.value == TransactionStatus.COMPLETED ==> r.result.message == Completed
    ensures r.Checked? && r.result.value == TransactionStatus.FAILED ==> r.result.message == Failed
  {
    var pending := Said(TransactionStatus.PROCESSING, InProgress);
    if fault == ConnectionFault then Checked(t, pending)
    else match P.GetRequestState(p, id, now)
    case Failure(e) => Crashed(e)
    case Success(state) =>
      if state == WithdrawalState.PROCESSING || fault == UpdateFault then Checked(t, pending)
      else
        assert id in p && state == P.StateAt(p[id], now);
        assert P.IsTerminal(state) && fault == NoFault;
        var message := if state == WithdrawalState.COMPLETED then Completed else Failed;
        Checked(S.Update(t, id, state, message), Said(AsStatus(state), message))
  }

  // ---------------------------------------------------------------- the reconciliation pass

  /** The ids a pass visits: distinct rows of the store, each still PROCESSING. */
  predicate Pending(listing: seq<WithdrawalId>, t: S.Table) {
    && (forall i :: 0 <= i < |listing| ==> listing[i] in t && t[listing[i]].status == WithdrawalState.PROCESSING)
    && (forall i, j :: 0 <= i < j < |listing| ==> listing[i] != listing[j])
  }

  function FaultOf(faults: map<WithdrawalId, CheckFault>, id: WithdrawalId): CheckFault {
    if id in faults then faults[id] else NoFault
  }

  /** Once the first listed row has been checked, the rest of the listing is still pending. */
  lemma PendingTail(listing: seq<WithdrawalId>, t: S.Table, u: S.Table)
    requires Pending(listing, t) && |listing| > 0
    requires u.Keys == t.Keys && forall k :: k in t && k != listing[0] ==> u[k] == t[k]
    ensures Pending(listing[1..], u)
  {
    forall i | 0 <= i < |listing[1..]|
      ensures listing[1..][i] in u && u[listing[1..][i]].status == WithdrawalState.PROCESSING
    {
      assert listing[1..][i] == listing[i + 1] != listing[0];
    }
  }

  /** A row either keeps its value or, from PROCESSING, takes a terminal state with a message;
      its transaction id, address and amount never change. */
  predicate Moves(before: S.Row, after: S.Row) {
    after == before
    || (&& before.status == WithdrawalState.PROCESSING
        && after.status != WithdrawalState.PROCESSING
        && after.message.Some?
        && after == before.(status := after.status, message := after.message))
  }

  /** The store after a pass, the reports sent, and the provider exception that ended it early, if any. */
  datatype PassOutput = PassOutput(table: S.Table, sent: seq<Report>, crash: Option<P.ProviderError>)

  /** `checkProcessingWithdrwals` over the rows `findProcessing` listed: check each in turn and
      send a report for every result that is no longer PROCESSING. A provider exception
      ends the pass; what was written and sent before it stays. */
  function Pass(t: S.Table, p: P.Requests, listing: seq<WithdrawalId>, now: int, faults: map<WithdrawalId, CheckFault>)
    : (r: PassOutput)
    requires S.WellFormed(t) && Pending(listing, t)
    ensures S.WellFormed(r.table) && r.table.Keys == t.Keys
    ensures forall id :: id in t && id !in listing ==> r.table[id] == t[id]
    ensures forall id :: id in t ==> Moves(t[id], r.table[id])
    ensures r.crash.Some? ==> r.crash.value.NotFound?
    decreases |listing|
  {
    if |listing| == 0 then PassOutput(t, [], None)
    else
      var id := listing[0];
      var row := t[id];
      match CheckWithdrawal(t, p, id, now, FaultOf(faults, id))
      case Crashed(e) => PassOutput(t, [], Some(e))
      case Checked(checked, result) =>
        PendingTail(listing, t, checked);
        var rest := Pass(checked, p, listing[1..], now, faults);
        var sent := if result.value != TransactionStatus.PROCESSING
                    then [Report(row.transactionId, row.amount, result.value, result.message)]
                    else [];
        assert forall x :: x in listing <==> x == id || x in listing[1..];
        assert forall i :: 1 <= i < |listing| ==> listing[i] == listing[1..][i - 1];
        PassOutput(rest.table, sent + rest.sent, rest.crash)
  }

  /** The provider is never asked about `id`, or knows it. */
  predicate Answerable(p: P.Requests, faults: map<WithdrawalId, CheckFault>, id: WithdrawalId) {
    id in p || FaultOf(faults, id) == ConnectionFault
  }

  predicate AllAnswerable(p: P.Requests, faults: map<WithdrawalId, CheckFault>, listing: seq<WithdrawalId>) {
    forall i :: 0 <= i < |listing| ==> Answerable(p, faults, listing[i])
  }

  lemma AllAnswerableCons(p: P.Requests, faults: map<WithdrawalId, CheckFault>, listing: seq<WithdrawalId>)
    requires |listing| > 0
    ensures AllAnswerable(p, faults, listing) <==>
      Answerable(p, faults, listing[0]) && AllAnswerable(p, faults, listing[1..])
  {
    assert forall i :: 1 <= i < |listing| ==> listing[i] == listing[1..][i - 1];
  }

  /** A pass ends early exactly when it reaches a withdrawal the provider does not know and
      whose connection opened: the provider's exception escapes and the engine stops. */
  lemma {:induction false} PassCrashesOnUnknown(t: S.Table, p: P.Requests, listing: seq<WithdrawalId>, now: int,
                                                faults: map<WithdrawalId, CheckFault>)
    requires S.WellFormed(t) && Pending(listing, t)
    ensures Pass(t, p, listing, now, faults).crash.None? <==> AllAnswerable(p, faults, listing)
    decreases |listing|
  {
    if |listing| > 0 {
      var id := listing[0];
      AllAnswerableCons(p, faults, listing);
      var c := CheckWithdrawal(t, p, id, now, FaultOf(faults, id));
      if c.Crashed? {
        assert Pass(t, p, listing, now, faults).crash == Some(c.error);
      } else {
        PendingTail(listing, t, c.table);
        PassCrashesOnUnknown(c.table, p, listing[1..], now, faults);
        assert Pass(t, p, listing, now, faults).crash == Pass(c.table, p, listing[1..], now, faults).crash;
      }
    }
  }

  /** The reports a pass owes for the rows it settled: one per listed row that now holds a
      terminal state, in listing order, carrying that row's transaction, amount, state and message. */
  function SettledReports(listing: seq<WithdrawalId>, t: S.Table): seq<Report>
    requires forall i :: 0 <= i < |listing| ==> listing[i] in t
    decreases |listing|
  {
    if |listing| == 0 then []
    else
      var row := t[listing[0]];
      (if row.status != WithdrawalState.PROCESSING && row.message.Some?
       then [Report(row.transactionId, row.amount, AsStatus(row.status), row.message.value)]
       else [])
      + SettledReports(listing[1..], t)
  }

  /** A pass that runs to its end sends exactly the reports owed for the rows it settled. */
  lemma {:induction false} PassReportsSettled(t: S.Table, p: P.Requests, listing: seq<WithdrawalId>, now: int,
                                              faults: map<WithdrawalId, CheckFault>)
    requires S.WellFormed(t) && Pending(listing, t)
    ensures var r := Pass(t, p, listing, now, faults);
            r.crash.None? ==> r.sent == SettledReports(listing, r.table)
    decreases |listing|
  {
    if |listing| > 0 {
      var id := listing[0];
      var c := CheckWithdrawal(t, p, id, now, FaultOf(faults, id));
      if c.Checked? {
        PendingTail(listing, t, c.table);
        PassReportsSettled(c.table, p, listing[1..], now, faults);
        var rest := Pass(c.table, p, listing[1..], now, faults);
        var row := t[id];
        var head := if c.result.value != TransactionStatus.PROCESSING
                    then [Report(row.transactionId, row.amount, c.result.value, c.result.message)]
                    else [];
        assert Pass(t, p, listing, now, faults) == PassOutput(rest.table, head + rest.sent, rest.crash);
        // the tail of the pass leaves the head's row as the check wrote it
        assert id !in listing[1..];
        assert rest.table[id] == c.table[id];
        var final := rest.table[id];
        assert head == (if final.status != WithdrawalState.PROCESSING && final.message.Some?
                        then [Report(final.transactionId, final.amount, AsStatus(final.status), final.message.value)]
                        else []);
        assert forall i :: 0 <= i < |listing[1..]| ==> listing[1..][i] in rest.table;
      }
    }
  }

  /** The store only ever records the provider's answer: every row a pass changes now holds
      the provider's terminal state at that time. */
  lemma {:induction false} PassAgreesWithProvider(t: S.Table, p: P.Requests, listing: seq<WithdrawalId>, now: int,
                                                  faults: map<WithdrawalId, CheckFault>)
    requires S.WellFormed(t) && Pending(listing, t)
    ensures var r := Pass(t, p, listing, now, faults);
            forall id :: id in t && r.table[id].status != t[id].status ==>
              id in p && r.table[id].status == P.StateAt(p[id], now) && P.IsTerminal(r.table[id].status)
    decreases |listing|
  {
    if |listing| > 0 {
      var id := listing[0];
      var c := CheckWithdrawal(t, p, id, now, FaultOf(faults, id));
      if c.Checked? {
        PendingTail(listing, t, c.table);
        PassAgreesWithProvider(c.table, p, listing[1..], now, faults);
        var rest := Pass(c.table, p, listing[1..], now, faults);
        assert Pass(t, p, listing, now, faults).table == rest.table;
        forall k | k in t && rest.table[k].status != t[k].status
          ensures k in p && rest.table[k].status == P.StateAt(p[k], now) && P.IsTerminal(rest.table[k].status)
        {
          if c.table[k].status == t[k].status {
            assert rest.table[k].status != c.table[k].status;
          } else {
            assert k == id;
            assert Moves(c.table[k], rest.table[k]);
          }
        }
      }
    }
  }

  /** Reports fit for the report queue after a check: valid, and no longer PROCESSING. */
  predicate AllTerminal(sent: seq<Report>) {
    forall i :: 0 <= i < |sent| ==> ValidReport(sent[i]) && sent[i].status != TransactionStatus.PROCESSING
  }

  lemma AllTerminalConcat(a: seq<Report>, b: seq<Report>)
    requires AllTerminal(a) && AllTerminal(b)
    ensures AllTerminal(a + b)
  {
    forall i | 0 <= i < |a + b|
      ensures ValidReport((a + b)[i]) && (a + b)[i].status != TransactionStatus.PROCESSING
    {
      if i >= |a| {
        assert (a + b)[i] == b[i - |a|];
      }
    }
  }

  /** Every report a pass sends is a valid report of a terminal result. */
  lemma {:induction false} PassSendsTerminal(t: S.Table, p: P.Requests, listing: seq<WithdrawalId>, now: int,
                                             faults: map<WithdrawalId, CheckFault>)
    requires S.WellFormed(t) && Pending(listing, t)
    ensures AllTerminal(Pass(t, p, listing, now, faults).sent)
    decreases |listing|
  {
    if |listing| > 0 {
      var id := listing[0];
      var c := CheckWithdrawal(t, p, id, now, FaultOf(faults, id));
      if c.Checked? {
        PendingTail(listing, t, c.table);
        PassSendsTerminal(c.table, p, listing[1..], now, faults);
        var rest := Pass(c.table, p, listing[1..], now, faults);
        var row := t[id];
        var head := if c.result.value != TransactionStatus.PROCESSING
                    then [Report(row.transactionId, row.amount, c.result.value, c.result.message)]
                    else [];
        assert Pass(t, p, listing, now, faults).sent == head + rest.sent;
        assert AllTerminal(head) by {
          if head != [] {
            assert ValidTransactionId(row.transactionId) && row.amount > 0;
            assert ValidResult(c.result);
          }
        }
        AllTerminalConcat(head, rest.sent);
      }
    }
  }

  /** With no store failures and every listed withdrawal terminal at the provider, a pass ends
      normally and leaves none of its rows PROCESSING; over a full listing the store then has
      nothing left to reconcile, so the next pass finds nothing to do. */
  lemma {:induction false} PassSettlesAll(t: S.Table, p: P.Requests, listing: seq<WithdrawalId>, now: int)
    requires S.WellFormed(t) && Pending(listing, t)
    requires forall i :: 0 <= i < |listing| ==> listing[i] in p && P.IsTerminal(P.StateAt(p[listing[i]], now))
    ensures var r := Pass(t, p, listing, now, map[]);
            && r.crash.None?
            && (forall id :: id in listing ==> r.table[id].status != WithdrawalState.PROCESSING)
            && (S.IsListingOf(listing, S.ProcessingIds(t)) ==> S.ProcessingIds(r.table) == {})
    decreases |listing|
  {
    if |listing| > 0 {
      var id := listing[0];
      var c := CheckWithdrawal(t, p, id, now, NoFault);
      assert forall i :: 0 <= i < |listing[1..]| ==> listing[1..][i] == listing[i + 1];
      PassSettlesAll(c.table, p, listing[1..], now);
      var r := Pass(t, p, listing, now, map[]);
      var rest := Pass(c.table, p, listing[1..], now, map[]);
      assert id !in listing[1..];
      assert forall x :: x in listing <==> x == id || x in listing[1..];
      if S.IsListingOf(listing, S.ProcessingIds(t)) {
        forall x | x in r.table
          ensures r.table[x].status != WithdrawalState.PROCESSING
        {
          if x !in listing {
            assert x !in S.ProcessingIds(t);
          }
        }
      }
    }
  }

  /** A row that is terminal stays terminal, whatever later passes see or fail at. */
  lemma PassKeepsFinal(t: S.Table, p: P.Requests, listing: seq<WithdrawalId>, now: int,
                       faults: map<WithdrawalId, CheckFault>, id: WithdrawalId)
    requires S.WellFormed(t) && Pending(listing, t)
    requires id in t && t[id].status != WithdrawalState.PROCESSING
    ensures Pass(t, p, listing, now, faults).table[id] == t[id]
  {
    assert Moves(t[id], Pass(t, p, listing, now, faults).table[id]);
  }

  // ---------------------------------------------------------------- one iteration

  datatype WState = WState(table: S.Table, provider: P.Requests)

  /** The state after an iteration, the reports put on the report queue, and the provider
      exception that ended the engine's thread, if any. */
  datatype WStep = WStep(state: WState, sent: seq<Report>, crash: Option<P.ProviderError>)

  predicate ValidWState(s: WState) {
    S.WellFormed(s.table) && P.WellFormed(s.provider)
  }

  /** One pass of the `run` loop. `polled` is what the one-second poll returned (None on
      timeout); `listing` is what `findProcessing` returned, None when it raised an SQLException. */
  function Iteration(s: WState, polled: Option<Transaction>, now: int, d: P.Draw,
                     listing: Option<seq<WithdrawalId>>, faults: map<WithdrawalId, CheckFault>): (r: WStep)
    requires ValidWState(s) && P.ValidDraw(d)
    requires polled.Some? ==> ValidTransaction(polled.value)
    requires polled.None? && listing.Some? ==> S.IsListingOf(listing.value, S.ProcessingIds(s.table))
    ensures ValidWState(r.state)
    // a message is never reconciled against the store; only an idle poll reconciles
    ensures polled.Some? ==> r.state.table == s.table && r.crash.None?
    ensures polled.None? ==> r.state.provider == s.provider
    ensures polled.None? && listing.None? ==> r == WStep(s, [], None)
    // one report per withdrawal request; any other message is ignored
    ensures polled.Some? && polled.value.RequestTx? ==>
      |r.sent| == 1 && r.sent[0].transactionId == polled.value.request.transactionId
    ensures polled.Some? && !polled.value.RequestTx? ==> r == WStep(s, [], None)
    ensures forall i :: 0 <= i < |r.sent| ==> ValidReport(r.sent[i])
    // a polled request is registered, and its registration's report is the one sent
    ensures polled.Some? && polled.value.RequestTx? ==>
      && r.state.provider == Register(s.provider, polled.value.request, now, d).provider
      && r.sent == [Register(s.provider, polled.value.request, now, d).report]
    // an idle turn with a listing is one reconciliation pass: its table, its reports, its crash
    ensures polled.None? && listing.Some? ==>
      && Pending(listing.value, s.table)
      && r.state.table == Pass(s.table, s.provider, listing.value, now, faults).table
      && r.sent == Pass(s.table, s.provider, listing.value, now, faults).sent
      && r.crash == Pass(s.table, s.provider, listing.value, now, faults).crash
  {
    match polled
    case Some(RequestTx(w)) =>
      var reg := Register(s.provider, w, now, d);
      WStep(WState(s.table, reg.provider), [reg.report], None)
    case Some(_) => WStep(s, [], None)
    case None =>
      if listing.None? then WStep(s, [], None)
      else
        var ids := listing.value;
        assert Pending(ids, s.table) by {
          forall i | 0 <= i < |ids| ensures ids[i] in s.table && s.table[ids[i]].status == WithdrawalState.PROCESSING {
            assert ids[i] in S.ProcessingIds(s.table);
          }
        }
        PassSendsTerminal(s.table, s.provider, ids, now, faults);
        var pass := Pass(s.table, s.provider, ids, now, faults);
        WStep(WState(pass.table, s.provider), pass.sent, pass.crash)
  }

  // ---------------------------------------------------------------- listing the pending rows

  /** The store's error when a row is read by a column the query did not select. */
  const ColumnNotFound := "column not found: address"

  /** `findProcessing` as written: the query selects `to_address` but each row is read by the
      column `address`, so the first PROCESSING row raises an SQLException. */
  function FindProcessingAsWritten(t: S.Table): (r: Outcome<seq<WithdrawalId>, string>)
    ensures r.Success? <==> S.ProcessingIds(t) == {}
    ensures r.Success? ==> r.value == []
  {
    if S.ProcessingIds(t) == {} then Success([]) else Failure(ColumnNotFound)
  }

  /** With the listing as written, an idle iteration never settles anything: the store keeps
      every row and nothing is sent, however long the provider has been terminal. */
  lemma ReconciliationAsWrittenStalls(s: WState, now: int, d: P.Draw, faults: map<WithdrawalId, CheckFault>)
    requires ValidWState(s) && P.ValidDraw(d)
    ensures var found := FindProcessingAsWritten(s.table);
            var listing := if found.Success? then Some(found.value) else None;
            Iteration(s, None, now, d, listing, faults) == WStep(s, [], None)
  {
    var found := FindProcessingAsWritten(s.table);
    if found.Success? {
      assert S.IsListingOf([], S.ProcessingIds(s.table));
    }
  }

  /** With the listing `FindProcessing` builds, an idle iteration without store failures, at a
      time when the provider has finished every pending withdrawal, settles the whole store. */
  method ReconcileOnce(s: WState, now: int, d: P.Draw) returns (r: WStep)
    requires ValidWState(s) && P.ValidDraw(d)
    requires forall id :: id in S.ProcessingIds(s.table) ==> id in s.provider && P.StateAt(s.provider[id], now) != WithdrawalState.PROCESSING
    ensures ValidWState(r.state) && r.crash.None?
    ensures r.state.table.Keys == s.table.Keys && S.ProcessingIds(r.state.table) == {}
    ensures forall id :: id in s.table ==> Moves(s.table[id], r.state.table[id])
  {
    var ids := S.FindProcessing(s.table);
    assert Pending(ids, s.table) by {
      forall i | 0 <= i < |ids| ensures ids[i] in s.table && s.table[ids[i]].status == WithdrawalState.PROCESSING {
        assert ids[i] in S.ProcessingIds(s.table);
      }
    }
    PassSettlesAll(s.table, s.provider, ids, now);
    r := Iteration(s, None, now, d, Some(ids), map[]);
  }
}

=== FILE: wrappers.dfy ===
/** Wrappers shared by the whole model.
    - Option<T>: a value that may be absent; also stands for a Java reference that may be null.
    - Outcome<T, E>: a value or the error a Java method would have thrown instead.
 */
module Wrappers {

  datatype Option<+T> = None | Some(value: T)

  datatype Outcome<+T, +E> = Success(value: T) | Failure(error: E)
}
